=== FILE: README.md ===
# Band-name voting bot: a verified model of its tally and candidate engine

The bot collects band-name suggestions in a Telegram group and runs a daily
poll over every suggestion not yet polled, in polls of at most ten options.
It tracks votes live from the voters' answers, and stores final counts when a
poll closes. Once a week it runs a championship poll over the five names
with the most daily votes of the past seven days. Some hours later it reveals
who suggested each of them.

With the I/O stripped away, the engine is a set of deterministic transitions
over four documents. This project models them as immutable Dafny values and
pure functions:

- the suggestion registry (`storage.py`): a list of records;
- the poll ledger (`storage.py`): poll id to poll record, in insertion order;
- the weekly results (`storage.py`): a list of championship snapshots;
- the subscribers (`storage.py`): a list of users.

On top of the documents sit:

- the live vote tracker (`bot.py`, `on_poll_answer`): it diffs a voter's new
  selection against the remembered one;
- the poll-closed handler (`bot.py`, `on_poll_update`);
- the `/results` leaderboard and the empty-name checks of the two submission
  paths (`bot.py`);
- the poll lifecycle (`scheduler.py`): daily chunking, the weekly ranking and
  top five, the reveal, and the scheduler's job table.

Modules, one per file:

| module | models |
|---|---|
| `Wrappers` | `Option`, for Python's `None` |
| `Dict` | Python dicts as association lists: assignment overwrites in place or appends, so iteration order is insertion order |
| `Text` | `str.strip()` with Python's whitespace set, `str.lower()`, `" ".join` |
| `Suggestions` | the registry: add, unused, mark used, look up, delete |
| `Polls` | the ledger: register, deltas, set counts, close, windowed scores |
| `StableSort` | Python's stable `sort` on tuple keys, as an insertion sort |
| `Ranking` | the weekly championship ranking and the `/results` ranking |
| `Weekly` | weekly results: append, latest, mark revealed |
| `Subscribers` | add (idempotent), remove |
| `Storage` | the four documents together and `reset_all_votes` |
| `Votes` | `on_poll_answer` and its remembered selections |
| `Scheduler` | `run_daily_poll`, `run_weekly_poll`, `run_author_reveal` |
| `Bot` | `cmd_suggest`, `receive_band_name`, `cmd_results`, `on_poll_update` |
| `Scenarios` | concrete end-to-end runs through the handlers |

Inputs the program takes from its environment are parameters of the model:

- uuids;
- the clock, as an integer count of microseconds, one parameter per read:
  a daily run's polls each carry their own save time, and a weekly run reads
  the clock once for the window before the send and three times after it
  (poll, result record, reveal time). The stored timestamps are
  UTC ISO strings carrying microseconds (left off when zero, which still sorts
  first), so they order like these integers;
  the seven-day window is `7 * 86400 * 1000000` and the reveal delay is
  `hours * 3600 * 1000000`;
- the poll id and message id Telegram assigns;
- whether a send succeeded;
- the `reveal_delay_hours` setting.

Two facts about the code that a reader might not expect:

- `save_poll` stores the options exactly as given; it does not zero the counts.
  Both callers pass zero counts, which `DailyOptions` and `WeeklyOptions` state.
- A failed send in the middle of a daily run ends the run, but the chunks sent
  before it stay registered and marked used (`Scheduler.DailyRunMarks`).
  The run is not all-or-nothing.

## Model

| member | source | states |
|---|---|---|
| Dict.Get | storage.py:190-192 | A lookup finds nothing exactly when no entry has the key. |
| Dict.Set | storage.py:125-131 | After assignment the key maps to the new value and every other key keeps its lookup. |
| Dict.SetShape | storage.py:186 | Assignment keeps key order and appends a new key at the end, so score tables list ids in first-seen order; keys stay unique. |
| Text.StripMeaning | storage.py:43-49 | The stripped text is the slice of the input left after dropping whitespace at both ends: only whitespace lies around it. |
| Text.NormalizeOfStrip | storage.py:43-45 | A name stored stripped has the same duplicate key (`strip().lower()`) as the name submitted. |
| Text.StripIdempotent | storage.py:43-49 | Stripping twice is stripping once. |
| Suggestions.IsDuplicate | storage.py:43-46 | A name is a duplicate exactly when some stored name has the same stripped, lower-cased form. |
| Suggestions.AddSuggestion | storage.py:40-57 | Gives None with no change exactly when the normal form is taken. Otherwise it appends and returns one unused record with the stripped name, the given id, author and time. |
| Suggestions.AddKeepsNamesDistinct | storage.py:43-55 | Adding to a registry whose names have distinct normal forms keeps them distinct. |
| Suggestions.AddKeepsIdsUnique | storage.py:47-55 | Adding under an id no record carries keeps ids unique. |
| Suggestions.AddAllNamesDistinct | storage.py:40-57 | Any run of submissions keeps the distinct-normal-forms invariant. |
| Suggestions.FromEmptyNamesDistinct | storage.py:40-57 | From an empty registry, no run of submissions stores two names with the same normal form. |
| Suggestions.UnusedMeaning | storage.py:60-63 | The unused list holds exactly the records whose flag is false, each as often as stored, as a subsequence of the registry (stored order). |
| Suggestions.MarkUsed | storage.py:66-73 | Length and order kept. A record's flag becomes set exactly when it was set or its id is listed. No other field changes, and unknown ids change nothing. |
| Suggestions.MarkUsedIdempotent | storage.py:66-73 | Marking the same ids twice equals marking them once. |
| Suggestions.MarkUsedThenUnused | storage.py:60-73 | After marking, no listed id is unused; unused records whose id is not listed stay unused. |
| Suggestions.MarkUsedKeepsNamesDistinct | storage.py:66-73 | Marking keeps the distinct-names invariant. |
| Suggestions.FindById | storage.py:91-96 | None exactly when no record has the id; otherwise the first record carrying it. |
| Suggestions.LastWithId | storage.py:106-112 | The record the deletion loop returns is the last one carrying the id; None exactly when none does. |
| Suggestions.WithoutIdMeaning | storage.py:107-112 | The kept list holds exactly the records whose id differs from the target. |
| Suggestions.DeleteSuggestion | storage.py:99-114 | Index below 1 or past the unused count: None, no change. Otherwise it returns the last record carrying the id of unused record `index - 1` (no later record has that id) and keeps exactly the records without that id. |
| Suggestions.DeleteWithUniqueIds | storage.py:99-114 | With unique ids, deletion returns exactly unused record `index - 1`, removes exactly its position with the rest in order, and the unused list loses just that entry. |
| Suggestions.RemoveAtUniqueId | storage.py:106-112 | With unique ids, the deletion loop returns the record at position k and removes only position k. |
| Suggestions.DeleteKeepsInvariants | storage.py:99-114 | Deleting keeps distinct names and unique ids. |
| Storage.ResetAllVotes | storage.py:76-84 | Polls and weekly results are emptied and subscribers kept; every suggestion keeps its position and fields, with its flag cleared. |
| Storage.ResetMakesAllUnused | storage.py:76-84 | After a reset every suggestion is listed as unused, in stored order, and the registry's invariants still hold. |
| Polls.SavePoll | storage.py:121-132 | The id maps to an open poll of the given kind, message id and options, created at the given clock reading; other polls are untouched; keys stay unique. |
| Polls.ApplyDeltas | storage.py:142-146 | Option j moves by delta once per occurrence of j among the indices (a missing count is 0). Text and suggestion id are kept. Unlisted and out-of-range indices change nothing. |
| Polls.UpdatePollVoterCounts | storage.py:135-147 | Unknown poll: no-op. Known poll: only its option counts move, as above; other fields, other polls and key order are unchanged. |
| Polls.SetPollOptionCounts | storage.py:150-159 | Option j gets `counts[j]` for j below both lengths. Surplus counts are ignored; trailing options, other fields and other polls are untouched; unknown poll: no-op. |
| Polls.SetPollOptionCountsIdempotent | storage.py:150-159 | Setting the same counts twice equals setting them once. |
| Polls.ClosePoll | storage.py:162-167 | A known poll becomes closed with nothing else changed; an unknown id is a no-op. |
| Polls.ClosePollIdempotent | storage.py:162-167 | Closing twice equals closing once. |
| Polls.AddOptionGet | storage.py:184-186 | An option with a non-empty suggestion id adds its count (0 when missing) to that id's score, starting from 0. Any other option changes no score. |
| Polls.AddOptionScoresMeaning | storage.py:183-186 | Over one poll's options, an id gains the sum of the counts of the options carrying it, and gets an entry only if one does. |
| Polls.ScoresSinceMeaning | storage.py:170-187 | An id has a score exactly when a daily poll created at or after the cutoff (inclusive) has an option for it. The score is the total of those options' counts; weekly polls, older polls and options without an id count for nothing. |
| Polls.ScoresSinceUniqueKeys | storage.py:176-187 | The score table lists each suggestion id once. |
| Weekly.Latest | storage.py:206-209 | None exactly for an empty document, otherwise the last record. |
| Weekly.LatestAfterAdd | storage.py:199-209 | After appending, the latest record is the one appended and the earlier ones are kept. |
| Weekly.MarkLatestRevealed | storage.py:212-217 | The last record gets `revealed` set; all other records are kept; an empty document is left as it is. |
| Weekly.MarkLatestRevealedIdempotent | storage.py:212-217 | Marking twice equals marking once. |
| Subscribers.AddSubscriber | storage.py:224-236 | Reports true and appends the user exactly when not yet subscribed; otherwise false and no change. User ids stay unique. |
| Subscribers.AddSubscriberIdempotent | storage.py:224-236 | Subscribing again reports false and changes nothing. |
| Subscribers.RemoveSubscriberMeaning | storage.py:239-244 | Removal drops every entry of the user and keeps every other entry; a user not subscribed leaves the list as it was. |
| Subscribers.RemoveSubscriberInOrder | storage.py:239-244 | Removal decides entry by entry and keeps the survivors in order: one entry stays exactly when it belongs to another user, and removal distributes over concatenation. |
| Subscribers.RemoveKeepsUnique | storage.py:239-244 | Removal keeps user ids unique. |
| Subscribers.ResubscribeAfterRemove | storage.py:224-244 | After removal the user can subscribe again. |
| StableSort.Sort | scheduler.py:101 | The result is ordered by the key, is a permutation of the input, and keeps the input order within each key (stability). |
| Ranking.ResolveMeaning | scheduler.py:88-99 | Each entry comes from a score whose id resolves in the registry, with the registry's details and the score's votes. Every resolvable score yields an entry, in score-table order. |
| Ranking.RankWeekly | scheduler.py:88-101 | The ranking orders by votes descending, then submission time ascending. It is a permutation of the resolved entries and keeps score-table order among equal keys. |
| Ranking.Top | scheduler.py:102 | The top is the ranking's prefix of length min(5, n). |
| Ranking.TopDominates | scheduler.py:101-102 | No entry left out of the top outranks an entry in it. |
| Ranking.RankResults | bot.py:146-151 | The leaderboard rows are the resolvable (name, votes) pairs, most votes first, with score-table order kept among equal votes. |
| Votes.Without | bot.py:283-285 | The options of xs that are not in ys, in order: an option occurs as often as in xs when ys lacks it, otherwise not at all. |
| Votes.WithoutInOrder | bot.py:283-285 | The filter keeps the surviving options in their order: one option stays exactly when ys lacks it, and filtering a concatenation concatenates the filtered parts. |
| Votes.MoveVotes | bot.py:287-290 | Each option moves by the times it is added minus the times it is retracted, on that poll only. An unknown poll leaves the ledger unchanged. |
| Votes.OnPollAnswer | bot.py:272-295 | The remembered selection becomes the new one, or is dropped when the new one is empty; other voters' memory is untouched. Counts move by the added minus the retracted options. |
| Votes.DeltaPerOption | bot.py:283-290 | For duplicate-free selections: +1 only in the new one, -1 only in the old one, 0 in both or neither. |
| Votes.AnswerEffect | bot.py:280-290 | One answer moves each option of a known poll by (in new selection) - (in old selection). |
| Votes.SwitchExample | bot.py:283-290 | Switching {1,2} to {1,3}: option 2 loses one, option 3 gains one, option 1 is untouched. |
| Votes.ReplayTelescopes | bot.py:272-295 | After any run of answers from one voter, each option has moved by (in last selection) - (in the selection remembered before). |
| Votes.NetContribution | bot.py:272-295 | From no remembered selection, a voter's net effect is one vote for each option of their latest selection and nothing else. |
| Scheduler.Chunks | scheduler.py:36-37 | Every chunk is non-empty with at most 10 entries, and all but the last have exactly 10. |
| Scheduler.FlattenChunks | scheduler.py:36-37 | The chunks concatenated give back the unused list in order. |
| Scheduler.ChunksAreSlices | scheduler.py:36-37 | There are ceil(n/10) chunks, and chunk i is the slice from 10i to min(10i+10, n). |
| Scheduler.DailyOptions | scheduler.py:57-64 | One option per suggestion of the chunk, in order, with its name, its id and a zero count. |
| Scheduler.Delivered | scheduler.py:40-65 | Sending stops at the first failed send: every chunk counted as delivered had its poll sent. |
| Scheduler.RunDailyPoll | scheduler.py:29-69 | With no unused suggestion nothing changes; weekly results and subscribers are never touched. |
| Scheduler.SendDailyMarks | scheduler.py:40-66 | The suggestions marked used are exactly those of the chunks whose poll went out. |
| Scheduler.DailyRunMarks | scheduler.py:29-69 | A run that sends every chunk marks every unused suggestion and leaves none unused. One interrupted by a failed send marks exactly the chunks sent before it. |
| Scheduler.SendDailyRegisters | scheduler.py:57-65 | Each sent chunk is registered under its assigned id as an open daily poll created at that send's own save time, with options mirroring the chunk; other polls are untouched. |
| Scheduler.DailyRunRegisters | scheduler.py:29-65 | A daily run registers the k-th ten-suggestion chunk of the unused list under the k-th assigned id, for every chunk sent before the first failure, each created at its own save time; polls of other ids are untouched. |
| Scheduler.WeeklyOptions | scheduler.py:119-126 | The championship options are the line-up in order, with names, suggestion ids and zero counts. |
| Scheduler.RunWeeklyPoll | scheduler.py:76-149 | The window is taken from the clock reading before the send. No scores, an empty line-up or a failed send change nothing. Otherwise the line-up is launched as below, with the readings taken after the send. |
| Scheduler.LaunchChampionship | scheduler.py:119-147 | The weekly poll is registered open with zero counts in line-up order, created at its save time, and an unrevealed result holding the line-up and stamped with its own reading becomes the latest. The job `reveal_<poll id>` is due the delay after a third reading, replacing any job of that name. Nothing else changes. |
| Scheduler.ChampionshipMeaning | scheduler.py:78-102 | The line-up has at most five entries in championship order. Each is a registered suggestion with its registry details and its seven-day window total of daily votes. |
| Scheduler.FinalCounts | scheduler.py:164-167 | The final counts exist exactly when every option carries a suggestion id (otherwise the source raises). |
| Scheduler.FinalCountsMeaning | scheduler.py:164-167 | Each id's final count is the count of the last option carrying it. |
| Scheduler.RevealLines | scheduler.py:172-178 | One line per line-up entry, in order, with its name, its author and the final count for its id, falling back to the snapshot votes. |
| Scheduler.RunAuthorReveal | scheduler.py:156-186 | An announcement is made exactly when the latest result exists, is unrevealed, its final counts can be read and the send succeeds; it is then the reveal lines of the line-up against those counts, and the latest result is marked revealed. In every other case nothing changes. |
| Scheduler.RevealAtMostOnce | scheduler.py:158-185 | Right after an announcement the latest result is revealed and a second run does nothing. |
| Scheduler.RevealVotes | scheduler.py:163-178 | Each line's votes are the weekly poll's last count for the entry's id. The snapshot votes are used when the poll record is missing or has no option for the id. |
| Scheduler.RevealWithoutVotes | scheduler.py:119-178 | A championship revealed before anyone votes announces its line-up in order, each with its author and zero votes. |
| Bot.ReceiveBandName | bot.py:191-209 | A text that strips to empty is refused without touching the registry. Otherwise it is added, and only an accepted name changes the registry. |
| Bot.CmdSuggest | bot.py:61-91 | Without arguments the user is asked for the name and nothing changes. Otherwise the arguments joined by spaces are handled like a typed name. |
| Bot.ReceiveBandNameDecides | bot.py:191-209 | Duplicate exactly when non-empty and the normal form is taken; accepted exactly when non-empty and new; the distinct-names invariant is kept. |
| Bot.EmptyNameNeedsTheCheck | bot.py:193-196 | `add_suggestion` alone would store an empty name; the handler's check refuses it. |
| Bot.CmdResults | bot.py:134-156 | No leaderboard exactly when the week has no daily scores. Otherwise the rows are the resolvable scores, most votes first. |
| Bot.TieBreaksDiffer | bot.py:146-151 | On a tie the championship puts the older suggestion first, while the leaderboard keeps score-table order. |
| Bot.OnPollUpdate | bot.py:301-307 | An open poll's update changes nothing. A closed poll's update sets the counts position by position and marks the poll closed; other polls are untouched. |
| Bot.OnPollUpdateIdempotent | bot.py:301-307 | Handling the same update twice equals handling it once. |
| Scenarios.SameNameTwice | storage.py:40-57 | "Foo" is stored and " foo " is then refused as a duplicate, leaving one record. |
| Scenarios.DailyRoundTrip | storage.py:170-187 | Two suggestions go through a daily poll, a vote for the first, and the poll closing with [1, 0]. The week's scores then give the first one vote and the second none, and no suggestion is left unused. |

## Left out

- JSON file I/O and the atomic temp-file rename (`storage.py` lines 19-33): each document is an in-memory value, and each operation is one load-modify-save.
- `get_all_suggestions`, `get_all_subscribers` and `get_poll` only read a document; they are the document itself, or `Dict.Get` on the ledger.
- uuid generation and the clock: ids and integer microsecond timestamps are parameters. Every separate clock read of the program is a separate parameter, with no constraint that later reads are later in time.
- Timezone conversion (pytz): the seven-day window is `now - 7 * 86400 * 1000000` microseconds.
- APScheduler triggers, `create_scheduler` and the daily prompt: library behaviour and wiring. Only the job table (`replace_existing=True`) is modelled.
- Telegram calls (`send_poll`, `send_message`, `reply_text`), handler registration, the conversation states, `main` and `thread_kwargs`. Their results are parameters.
- Message texts, medals, the random thank-you line, config loading and logging.
- `is_admin`, the admin-only commands' access checks, the digit parsing of `/delete` and the `/suggestions` listing: presentation and access control around modelled operations.
- Concurrency: the asyncio handlers and the lost-update races between whole-document rewrites. The model is sequential.
- Text.Lower: models `str.lower()` only for ASCII, Latin-1 and the basic Cyrillic block (the bot's languages). Every other character is kept as is; full Unicode case mapping is not modelled.
- Weekly.MarkLatestRevealed: models `mark_weekly_revealed` only with its default index -1, the only way the program calls it.
- Scheduler.RunDailyPoll: a reply list shorter than the number of chunks is read as a failed send at the first missing reply.
- Scheduler.SendDailyRegisters: requires the poll ids Telegram assigns in one run to be distinct. A repeated id would overwrite the earlier registration, which the lemma does not describe.
- Scheduler.DailyRunRegisters: carries the same distinct-ids requirement, for the same reason.
- Suggestions.DeleteWithUniqueIds: assumes unique record ids, as uuid4 gives. Without it, `DeleteSuggestion` still states what happens: every record with the id is removed and the last one is returned.
- Suggestions.AddKeepsIdsUnique: requires the new id to be fresh, which is what uuid4 is relied on for.
- Polls.PollOption: a `suggestion_id` stored as null and one that is absent are both `None`. The scores skip both. The reveal treats both as the `KeyError` case, while the source raises only for an absent key.
- Votes.ReplayTelescopes: requires duplicate-free selections, as Telegram sends them. With duplicates `Votes.OnPollAnswer` still states the exact multiset arithmetic.

=== FILE: bot.dfy ===
/** The command and update handlers of `bot.py` that carry logic: the
    empty-name checks in front of `add_suggestion`, the `/results`
    leaderboard, and the closed-poll update. Replies, keyboards and the
    conversation state machine's texts are not modelled. */
module Bot {
  import opened Wrappers
  import opened Dict
  import opened Text
  import opened Suggestions
  import opened Polls
  import opened Ranking
  import opened Storage
  import opened StableSort
  import Scheduler

  // ---------------------------------------------------------------------------
  // Suggesting a name
  // ---------------------------------------------------------------------------

  /** How a submission ends: `/suggest` without arguments asks for the name in
      a private chat; an empty name and a duplicate are refused; otherwise the
      new record is accepted. */
  datatype SuggestOutcome = AskForName | EmptyName | Duplicate | Accepted(record: Suggestion)

  /** `receive_band_name`: the text is stripped, an empty result is refused
      without touching the registry, and anything else goes to `add_suggestion`. */
  function ReceiveBandName(r: Registry, text: string, id: string, authorId: int, authorName: string, now: int)
    : (res: (SuggestOutcome, Registry))
    ensures res.0.EmptyName? <==> Strip(text) == ""
    ensures !res.0.Accepted? ==> res.1 == r
    ensures res.0.Accepted? ==>
      && res.1 == r + [res.0.record]
      && res.0.record.name == Strip(text)
      && !res.0.record.usedInDaily
    ensures !res.0.AskForName?
  {
    var name := Strip(text);
    if name == "" then (EmptyName, r)
    else
      StripIdempotent(text);
      match AddSuggestion(r, name, id, authorId, authorName, now)
      case (None, _) => (Duplicate, r)
      case (Some(s), r') => (Accepted(s), r')
  }

  /** `cmd_suggest`: without arguments the user is sent to the private chat;
      otherwise the arguments joined by spaces are handled as a typed name. */
  function CmdSuggest(r: Registry, args: seq<string>, id: string, authorId: int, authorName: string, now: int)
    : (res: (SuggestOutcome, Registry))
    ensures |args| == 0 ==> res == (AskForName, r)
    ensures |args| > 0 ==> res == ReceiveBandName(r, Join(args, " "), id, authorId, authorName, now)
  {
    if |args| == 0 then (AskForName, r)
    else
      var name := Strip(Join(args, " "));
      if name == "" then (EmptyName, r)
      else
        StripIdempotent(Join(args, " "));
        match AddSuggestion(r, name, id, authorId, authorName, now)
        case (None, _) => (Duplicate, r)
        case (Some(s), r') => (Accepted(s), r')
  }

  /** A submission is refused as a duplicate exactly when its normal form is
      already taken, is accepted exactly when it is non-empty and new, and never
      breaks the registry's distinct-names invariant. */
  lemma ReceiveBandNameDecides(r: Registry, text: string, id: string, authorId: int, authorName: string, now: int)
    requires NamesDistinct(r)
    ensures var res := ReceiveBandName(r, text, id, authorId, authorName, now);
      && (res.0.Duplicate? <==>
            Strip(text) != "" && exists i :: 0 <= i < |r| && Normalize(r[i].name) == Normalize(text))
      && (res.0.Accepted? <==>
            Strip(text) != "" && forall i :: 0 <= i < |r| ==> Normalize(r[i].name) != Normalize(text))
      && NamesDistinct(res.1)
  {
    NormalizeOfStrip(text);
    AddKeepsNamesDistinct(r, Strip(text), id, authorId, authorName, now);
  }

  /** Without the bot's own check, `add_suggestion` would store an empty name:
      the check is what keeps empty names out. */
  lemma EmptyNameNeedsTheCheck(id: string, authorId: int, authorName: string, now: int)
    ensures AddSuggestion([], "  ", id, authorId, authorName, now).0 == Some(Suggestion(id, "", authorId, authorName, now, false))
    ensures ReceiveBandName([], "  ", id, authorId, authorName, now) == (EmptyName, [])
  {
    assert IsSpace(' ');
    assert AllSpace("  ");
    assert Strip("  ") == "";
  }

  // ---------------------------------------------------------------------------
  // The /results leaderboard
  // ---------------------------------------------------------------------------

  /** `cmd_results` at time `now`: no leaderboard when the week has no daily
      scores; otherwise the resolvable scores, most votes first. */
  function CmdResults(st: Store, now: int): (board: Option<seq<(string, int)>>)
    ensures board.None? <==> ScoresSince(st.polls, now - 7 * Scheduler.MICROS_PER_DAY) == []
    ensures board.Some? ==>
      var rows := ResultRows(ScoresSince(st.polls, now - 7 * Scheduler.MICROS_PER_DAY), st.suggestions);
      && multiset(board.value) == multiset(rows)
      && (forall i, j :: 0 <= i < j < |board.value| ==> board.value[i].1 >= board.value[j].1)
  {
    var scores := ScoresSince(st.polls, now - 7 * Scheduler.MICROS_PER_DAY);
    if scores == [] then None else Some(RankResults(scores, st.suggestions))
  }

  /** Two suggestions with three votes each, the second one older. */
  const TieRegistry: Registry := [
    Suggestion("a", "Alpha", 1, "Ann", 20, true),
    Suggestion("b", "Beta", 2, "Bob", 10, true)]
  const TieScores: Scores := [("a", 3), ("b", 3)]

  /** The two rankings break ties differently: the championship puts the older
      suggestion first, the leaderboard keeps score-table order. */
  lemma TieBreaksDiffer()
    ensures RankWeekly(TieScores, TieRegistry)[0].suggestionId == "b"
    ensures RankResults(TieScores, TieRegistry)[0].0 == "Alpha"
  {
    var alpha := EntryOf(TieRegistry[0], 3);
    var beta := EntryOf(TieRegistry[1], 3);
    assert FindById(TieRegistry, "a") == Some(TieRegistry[0]);
    assert FindById(TieRegistry, "b") == Some(TieRegistry[1]);
    assert Resolve(TieScores, TieRegistry) == [alpha, beta];
    assert Sort([beta], WeeklyKey) == [beta];
    assert Insert(alpha, [beta], WeeklyKey) == [beta, alpha];
    assert ResultRows(TieScores, TieRegistry) == [("Alpha", 3), ("Beta", 3)];
    assert Sort([("Beta", 3)], ResultsKey) == [("Beta", 3)];
    assert Insert(("Alpha", 3), [("Beta", 3)], ResultsKey) == [("Alpha", 3), ("Beta", 3)];
  }

  // ---------------------------------------------------------------------------
  // Poll updates
  // ---------------------------------------------------------------------------

  /** What Telegram sends when a poll changes: its id, whether it is closed,
      and every option's voter count in order. */
  datatype PollUpdate = PollUpdate(pollId: string, isClosed: bool, counts: seq<int>)

  /** `on_poll_update`: a closed poll's final counts are stored and the poll is
      marked closed; updates of open polls are ignored. */
  function OnPollUpdate(l: Ledger, u: PollUpdate): (l': Ledger)
    ensures !u.isClosed ==> l' == l
    ensures u.isClosed && Get(l, u.pollId).None? ==> l' == l
    ensures u.isClosed && Get(l, u.pollId).Some? ==>
      var p := Get(l, u.pollId).value;
      && Get(l', u.pollId).Some?
      && var p' := Get(l', u.pollId).value;
      && p'.closed
      && p'.(options := p.options, closed := p.closed) == p
      && |p'.options| == |p.options|
      && (forall j :: 0 <= j < |p.options| && j < |u.counts| ==>
            p'.options[j] == p.options[j].(voterCount := Some(u.counts[j])))
      && (forall j :: |u.counts| <= j < |p.options| ==> p'.options[j] == p.options[j])
    ensures forall id :: id != u.pollId ==> Get(l', id) == Get(l, id)
    ensures Keys(l') == Keys(l)
  {
    if u.isClosed then ClosePoll(SetPollOptionCounts(l, u.pollId, u.counts), u.pollId) else l
  }

  /** Receiving the same update twice has the effect of receiving it once. */
  lemma OnPollUpdateIdempotent(l: Ledger, u: PollUpdate)
    requires UniqueKeys(l)
    ensures OnPollUpdate(OnPollUpdate(l, u), u) == OnPollUpdate(l, u)
  {
    var once := OnPollUpdate(l, u);
    if u.isClosed && Get(l, u.pollId).Some? {
      var twice := OnPollUpdate(once, u);
      var p1 := Get(once, u.pollId).value;
      var p2 := Get(twice, u.pollId).value;
      assert |p2.options| == |p1.options|;
      forall j | 0 <= j < |p1.options| ensures p2.options[j] == p1.options[j] {
      }
      assert p2 == p1;
      assert UniqueKeys(once) by {
        UniqueOfKeys(l, once);
      }
      LedgerExt(once, twice);
    }
  }

  lemma UniqueOfKeys(a: Ledger, b: Ledger)
    requires UniqueKeys(a) && Keys(a) == Keys(b)
    ensures UniqueKeys(b)
  {
    forall i, j | 0 <= i < j < |b| ensures b[i].0 != b[j].0 {
      assert Keys(a)[i] == a[i].0 && Keys(a)[j] == a[j].0;
    }
  }
}

=== FILE: dict.dfy ===
/** Insertion-ordered dictionaries, as Python's `dict` behaves: an association
    list whose keys are listed in first-insertion order. The poll ledger and the
    score table are such dictionaries, and their order is observable because the
    rankings sort them stably. */
module Dict {
  import opened Wrappers

  type Dict<K, V> = seq<(K, V)>

  function Keys<K, V>(d: Dict<K, V>): (ks: seq<K>)
    ensures |ks| == |d|
    ensures forall i :: 0 <= i < |d| ==> ks[i] == d[i].0
  {
    if |d| == 0 then [] else [d[0].0] + Keys(d[1..])
  }

  /** No key occurs twice, which every dictionary built by `Set` keeps. */
  predicate UniqueKeys<K(==), V>(d: Dict<K, V>) {
    forall i, j :: 0 <= i < j < |d| ==> d[i].0 != d[j].0
  }

  predicate HasKey<K(==), V>(d: Dict<K, V>, k: K) {
    exists i :: 0 <= i < |d| && d[i].0 == k
  }

  /** Dictionary lookup: the value stored under the first occurrence of `k`, if any. */
  function Get<K(==), V>(d: Dict<K, V>, k: K): (r: Option<V>)
    ensures r.None? <==> !HasKey(d, k)
  {
    if |d| == 0 then None
    else if d[0].0 == k then Some(d[0].1)
    else
      assert !HasKey(d[1..], k) ==> !HasKey(d, k);
      Get(d[1..], k)
  }

  /** A found value sits at the first position holding its key. */
  lemma {:induction false} GetPosition<K, V>(d: Dict<K, V>, k: K)
    requires Get(d, k).Some?
    ensures exists i :: 0 <= i < |d| && d[i] == (k, Get(d, k).value)
  {
    if d[0].0 != k {
      GetPosition(d[1..], k);
      var i :| 0 <= i < |d[1..]| && d[1..][i] == (k, Get(d[1..], k).value);
      assert d[i + 1] == d[1..][i];
    }
  }

  /** Without repeated keys, every entry is what its key looks up. */
  lemma {:induction false} GetUnique<K, V>(d: Dict<K, V>, i: int)
    requires UniqueKeys(d) && 0 <= i < |d|
    ensures Get(d, d[i].0) == Some(d[i].1)
  {
    if i > 0 {
      assert d[0].0 != d[i].0;
      assert d[1..][i - 1] == d[i];
      GetUnique(d[1..], i - 1);
    }
  }

  /** Dictionary assignment: overwrites in place when `k` is present, appends otherwise. */
  function Set<K(==, !new), V>(d: Dict<K, V>, k: K, v: V): (r: Dict<K, V>)
    ensures Get(r, k) == Some(v)
    ensures forall k' :: k' != k ==> Get(r, k') == Get(d, k')
  {
    SetGet(d, k, v);
    SetRaw(d, k, v)
  }

  /** Setting keeps the key order, appending a new key at the end, and keeps keys unique. */
  lemma SetShape<K(!new), V>(d: Dict<K, V>, k: K, v: V)
    ensures HasKey(d, k) ==> Keys(Set(d, k, v)) == Keys(d)
    ensures !HasKey(d, k) ==> Keys(Set(d, k, v)) == Keys(d) + [k]
    ensures UniqueKeys(d) ==> UniqueKeys(Set(d, k, v))
  {
    SetKeys(d, k, v);
    SetUnique(d, k, v);
  }

  function SetRaw<K(==), V>(d: Dict<K, V>, k: K, v: V): Dict<K, V> {
    if |d| == 0 then [(k, v)]
    else if d[0].0 == k then [(k, v)] + d[1..]
    else [d[0]] + SetRaw(d[1..], k, v)
  }

  lemma {:induction false} SetGet<K(!new), V>(d: Dict<K, V>, k: K, v: V)
    ensures Get(SetRaw(d, k, v), k) == Some(v)
    ensures forall k' :: k' != k ==> Get(SetRaw(d, k, v), k') == Get(d, k')
  {
    if |d| > 0 && d[0].0 != k {
      SetGet(d[1..], k, v);
      var r := SetRaw(d, k, v);
      assert r[1..] == SetRaw(d[1..], k, v);
    } else if |d| > 0 {
      var r := SetRaw(d, k, v);
      assert r[1..] == d[1..];
    }
  }

  lemma {:induction false} SetKeys<K, V>(d: Dict<K, V>, k: K, v: V)
    ensures HasKey(d, k) ==> Keys(SetRaw(d, k, v)) == Keys(d)
    ensures !HasKey(d, k) ==> Keys(SetRaw(d, k, v)) == Keys(d) + [k]
  {
    if |d| > 0 && d[0].0 != k {
      SetKeys(d[1..], k, v);
      assert HasKey(d, k) <==> HasKey(d[1..], k) by {
        if HasKey(d, k) {
          var i :| 0 <= i < |d| && d[i].0 == k;
          assert d[1..][i - 1].0 == k;
        }
        if HasKey(d[1..], k) {
          var i :| 0 <= i < |d[1..]| && d[1..][i].0 == k;
          assert d[i + 1].0 == k;
        }
      }
      assert Keys(d) == [d[0].0] + Keys(d[1..]);
    } else if |d| > 0 {
      assert HasKey(d, k) by { assert d[0].0 == k; }
    }
  }

  lemma {:induction false} SetUnique<K, V>(d: Dict<K, V>, k: K, v: V)
    ensures UniqueKeys(d) ==> UniqueKeys(SetRaw(d, k, v))
  {
    if UniqueKeys(d) && |d| > 0 && d[0].0 != k {
      SetUnique(d[1..], k, v);
      SetKeys(d[1..], k, v);
      var t := SetRaw(d[1..], k, v);
      var r := SetRaw(d, k, v);
      assert r == [d[0]] + t;
      forall j | 0 <= j < |t|
        ensures t[j].0 != d[0].0
      {
        assert Keys(t)[j] == t[j].0;
        if j < |d| - 1 {
          assert Keys(t)[j] == Keys(d[1..])[j] == d[j + 1].0;
        } else {
          assert t[j].0 == k;
        }
      }
    }
  }
}

=== FILE: polls.dfy ===
/** The poll ledger of `storage.py`: a dictionary from the Telegram poll id to
    the poll's record, in registration order. */
module Polls {
  import opened Wrappers
  import opened Dict

  /** The record's `type` field, `"daily"` or `"weekly"`. */
  datatype PollKind = Daily | Weekly

  /** One option of a poll. A missing `suggestion_id` or `voter_count` key of
      the stored document is `None`. */
  datatype PollOption = PollOption(text: string, suggestionId: Option<string>, voterCount: Option<int>)

  /** An option's vote count; an option without one counts zero. */
  function Count(o: PollOption): int {
    o.voterCount.GetOr(0)
  }

  datatype Poll = Poll(messageId: int, options: seq<PollOption>, createdAt: int, kind: PollKind, closed: bool)

  type Ledger = Dict<string, Poll>

  /** `save_poll`: (re-)registers the poll under its id as an open poll created
      `now`, with the options exactly as given. */
  function SavePoll(l: Ledger, pollId: string, messageId: int, options: seq<PollOption>, kind: PollKind, now: int)
    : (l': Ledger)
    ensures Get(l', pollId) == Some(Poll(messageId, options, now, kind, false))
    ensures forall id :: id != pollId ==> Get(l', id) == Get(l, id)
    ensures UniqueKeys(l) ==> UniqueKeys(l')
  {
    SetShape(l, pollId, Poll(messageId, options, now, kind, false));
    Set(l, pollId, Poll(messageId, options, now, kind, false))
  }

  /** `o'` is `o` with `k` increments of `delta` applied: same text and
      suggestion, count moved by `k * delta`, and untouched when `k == 0`. */
  predicate BumpedBy(o: PollOption, o': PollOption, k: nat, delta: int) {
    && o'.text == o.text
    && o'.suggestionId == o.suggestionId
    && Count(o') == Count(o) + k * delta
    && (k == 0 ==> o' == o)
  }

  /** One step of the loop of `update_poll_voter_counts`: an index in range
      gains `delta`, any other index is ignored. */
  function Bump(opts: seq<PollOption>, i: int, delta: int): (r: seq<PollOption>)
    ensures |r| == |opts|
  {
    if 0 <= i < |opts| then opts[i := opts[i].(voterCount := Some(Count(opts[i]) + delta))] else opts
  }

  /** The loop of `update_poll_voter_counts` over the given indices, in order. */
  function ApplyDeltas(opts: seq<PollOption>, idxs: seq<int>, delta: int): (r: seq<PollOption>)
    ensures |r| == |opts|
    ensures forall j :: 0 <= j < |opts| ==> BumpedBy(opts[j], r[j], multiset(idxs)[j], delta)
    decreases |idxs|
  {
    if |idxs| == 0 then opts
    else
      var next := Bump(opts, idxs[0], delta);
      var r := ApplyDeltas(next, idxs[1..], delta);
      BumpThenMore(opts, idxs, delta, next, r);
      r
  }

  lemma BumpThenMore(opts: seq<PollOption>, idxs: seq<int>, delta: int, next: seq<PollOption>, r: seq<PollOption>)
    requires |idxs| > 0 && next == Bump(opts, idxs[0], delta)
    requires |r| == |next|
    requires forall j :: 0 <= j < |next| ==> BumpedBy(next[j], r[j], multiset(idxs[1..])[j], delta)
    ensures forall j :: 0 <= j < |opts| ==> BumpedBy(opts[j], r[j], multiset(idxs)[j], delta)
  {
    var i := idxs[0];
    assert idxs == [i] + idxs[1..];
    forall j | 0 <= j < |opts|
      ensures BumpedBy(opts[j], r[j], multiset(idxs)[j], delta)
    {
      var m := multiset(idxs[1..])[j];
      if j == i {
        assert multiset(idxs)[j] == m + 1;
        assert (m + 1) * delta == m * delta + delta;
      } else {
        assert multiset(idxs)[j] == m;
        assert next[j] == opts[j];
      }
    }
  }

  /** `update_poll_voter_counts`: for a known poll, every option gains `delta`
      once per occurrence of its index (a missing count counts as 0); indices out
      of range, all other fields and all other polls are left alone. Unknown
      polls are a no-op. */
  function UpdatePollVoterCounts(l: Ledger, pollId: string, idxs: seq<int>, delta: int): (l': Ledger)
    ensures Get(l, pollId).None? ==> l' == l
    ensures Get(l, pollId).Some? ==>
      var p := Get(l, pollId).value;
      && Get(l', pollId).Some?
      && var p' := Get(l', pollId).value;
      && p'.(options := p.options) == p
      && |p'.options| == |p.options|
      && forall j :: 0 <= j < |p.options| ==> BumpedBy(p.options[j], p'.options[j], multiset(idxs)[j], delta)
    ensures forall id :: id != pollId ==> Get(l', id) == Get(l, id)
    ensures Keys(l') == Keys(l)
  {
    match Get(l, pollId)
    case None => l
    case Some(p) =>
      var p' := p.(options := ApplyDeltas(p.options, idxs, delta));
      SetShape(l, pollId, p');
      Set(l, pollId, p')
  }

  /** The loop of `set_poll_option_counts`, from position `i` of `counts` on. */
  function SetCountsFrom(opts: seq<PollOption>, counts: seq<int>, i: nat): (r: seq<PollOption>)
    requires i <= |counts|
    ensures |r| == |opts|
    ensures forall j :: 0 <= j < |opts| && i <= j < |counts| ==> r[j] == opts[j].(voterCount := Some(counts[j]))
    ensures forall j :: 0 <= j < |opts| && !(i <= j < |counts|) ==> r[j] == opts[j]
    decreases |counts| - i
  {
    if i == |counts| then opts
    else
      var next := if i < |opts| then opts[i := opts[i].(voterCount := Some(counts[i]))] else opts;
      SetCountsFrom(next, counts, i + 1)
  }

  /** `set_poll_option_counts`: option `j` of a known poll gets count `counts[j]`
      for every `j` below both lengths; surplus counts are ignored and trailing
      options, other fields and other polls are untouched. Unknown polls are a no-op. */
  function SetPollOptionCounts(l: Ledger, pollId: string, counts: seq<int>): (l': Ledger)
    ensures Get(l, pollId).None? ==> l' == l
    ensures Get(l, pollId).Some? ==>
      var p := Get(l, pollId).value;
      && Get(l', pollId).Some?
      && var p' := Get(l', pollId).value;
      && p'.(options := p.options) == p
      && |p'.options| == |p.options|
      && (forall j :: 0 <= j < |p.options| && j < |counts| ==>
            p'.options[j] == p.options[j].(voterCount := Some(counts[j])))
      && (forall j :: |counts| <= j < |p.options| ==> p'.options[j] == p.options[j])
    ensures forall id :: id != pollId ==> Get(l', id) == Get(l, id)
    ensures Keys(l') == Keys(l)
  {
    match Get(l, pollId)
    case None => l
    case Some(p) =>
      var p' := p.(options := SetCountsFrom(p.options, counts, 0));
      SetShape(l, pollId, p');
      Set(l, pollId, p')
  }

  /** `close_poll`: a known poll becomes closed and nothing else changes; an
      unknown id is a no-op. */
  function ClosePoll(l: Ledger, pollId: string): (l': Ledger)
    ensures Get(l, pollId).None? ==> l' == l
    ensures Get(l, pollId).Some? ==> Get(l', pollId) == Some(Get(l, pollId).value.(closed := true))
    ensures forall id :: id != pollId ==> Get(l', id) == Get(l, id)
    ensures Keys(l') == Keys(l)
  {
    match Get(l, pollId)
    case None => l
    case Some(p) =>
      SetShape(l, pollId, p.(closed := true));
      Set(l, pollId, p.(closed := true))
  }

  /** Two ledgers with the same keys in the same order and the same lookups are equal. */
  lemma {:induction false} LedgerExt(a: Ledger, b: Ledger)
    requires UniqueKeys(a)
    requires Keys(a) == Keys(b)
    requires forall id :: Get(a, id) == Get(b, id)
    ensures a == b
  {
    assert |a| == |Keys(a)| == |b|;
    forall i | 0 <= i < |a|
      ensures a[i] == b[i]
    {
      var k := a[i].0;
      assert Keys(a)[i] == k == Keys(b)[i] == b[i].0;
      assert HasKey(a, k);
      GetPosition(a, k);
      GetPosition(b, k);
      var j :| 0 <= j < |a| && a[j] == (k, Get(a, k).value);
      var j' :| 0 <= j' < |b| && b[j'] == (k, Get(b, k).value);
      assert j == i;
      assert Keys(b)[j'] == k;
      assert Keys(a)[j'] == k;
      assert j' == i;
    }
  }

  lemma SetPollOptionCountsIdempotent(l: Ledger, pollId: string, counts: seq<int>)
    requires UniqueKeys(l)
    ensures SetPollOptionCounts(SetPollOptionCounts(l, pollId, counts), pollId, counts)
         == SetPollOptionCounts(l, pollId, counts)
  {
    var once := SetPollOptionCounts(l, pollId, counts);
    var twice := SetPollOptionCounts(once, pollId, counts);
    if Get(l, pollId).Some? {
      var p1 := Get(once, pollId).value;
      var p2 := Get(twice, pollId).value;
      assert p2.options == p1.options;
      assert p2 == p1;
      assert UniqueKeys(once);
      LedgerExt(once, twice);
    }
  }

  lemma ClosePollIdempotent(l: Ledger, pollId: string)
    requires UniqueKeys(l)
    ensures ClosePoll(ClosePoll(l, pollId), pollId) == ClosePoll(l, pollId)
  {
    var once := ClosePoll(l, pollId);
    if Get(l, pollId).Some? {
      LedgerExt(once, ClosePoll(once, pollId));
    }
  }

  /** Score table: votes per suggestion id, in first-seen order. */
  type Scores = Dict<string, int>

  /** A poll counts towards the window when it is a daily poll created at or after `since`. */
  predicate InWindow(p: Poll, since: int) {
    p.kind == Daily && p.createdAt >= since
  }

  /** The id an option scores for: its suggestion id, when present and non-empty. */
  function ScoredId(o: PollOption): Option<string> {
    if o.suggestionId.Some? && o.suggestionId.value != "" then o.suggestionId else None
  }

  /** The inner loop of `get_daily_scores_since` over one poll's options. */
  function AddOptionScores(scores: Scores, opts: seq<PollOption>): Scores
    decreases |opts|
  {
    if |opts| == 0 then scores
    else
      AddOption(AddOptionScores(scores, opts[..|opts| - 1]), opts[|opts| - 1])
  }

  /** Adds a scoring option's count to the running total of its suggestion id,
      starting that total at zero when the id is new; other options change nothing. */
  function AddOption(scores: Scores, o: PollOption): (r: Scores)
    ensures UniqueKeys(scores) ==> UniqueKeys(r)
  {
    match ScoredId(o)
    case None => scores
    case Some(sid) =>
      SetShape(scores, sid, Get(scores, sid).GetOr(0) + Count(o));
      Set(scores, sid, Get(scores, sid).GetOr(0) + Count(o))
  }

  lemma AddOptionGet(scores: Scores, o: PollOption, sid: string)
    ensures Get(AddOption(scores, o), sid) ==
      (if ScoredId(o) == Some(sid) then Some(Get(scores, sid).GetOr(0) + Count(o)) else Get(scores, sid))
  {
    match ScoredId(o)
    case None =>
    case Some(id) =>
      var r := Set(scores, id, Get(scores, id).GetOr(0) + Count(o));
      assert AddOption(scores, o) == r;
      if id == sid {
        assert Get(r, sid) == Some(Get(scores, sid).GetOr(0) + Count(o));
      } else {
        assert Get(r, sid) == Get(scores, sid);
      }
  }

  /** `get_daily_scores_since(since)`, over the polls in ledger order. */
  function ScoresSince(l: Ledger, since: int): Scores
    decreases |l|
  {
    if |l| == 0 then []
    else
      var s := ScoresSince(l[..|l| - 1], since);
      var p := l[|l| - 1].1;
      if InWindow(p, since) then AddOptionScores(s, p.options) else s
  }

  // Reference definitions: per-suggestion sums, with no dictionary involved.

  /** Some option of `opts` scores for `sid`. */
  predicate OptionsMention(opts: seq<PollOption>, sid: string) {
    exists j :: 0 <= j < |opts| && ScoredId(opts[j]) == Some(sid)
  }

  /** The sum of the counts of the options that score for `sid`. */
  function OptionsTotal(opts: seq<PollOption>, sid: string): int
    decreases |opts|
  {
    if |opts| == 0 then 0
    else OptionsTotal(opts[..|opts| - 1], sid)
         + (if ScoredId(opts[|opts| - 1]) == Some(sid) then Count(opts[|opts| - 1]) else 0)
  }

  /** Some poll in the window has an option scoring for `sid`. */
  predicate WindowMentions(l: Ledger, since: int, sid: string) {
    exists i :: 0 <= i < |l| && InWindow(l[i].1, since) && OptionsMention(l[i].1.options, sid)
  }

  /** The votes for `sid` summed over all polls in the window. */
  function WindowTotal(l: Ledger, since: int, sid: string): int
    decreases |l|
  {
    if |l| == 0 then 0
    else WindowTotal(l[..|l| - 1], since, sid)
         + (if InWindow(l[|l| - 1].1, since) then OptionsTotal(l[|l| - 1].1.options, sid) else 0)
  }

  lemma OptionsMentionSnoc(opts: seq<PollOption>, sid: string)
    requires |opts| > 0
    ensures OptionsMention(opts, sid)
        <==> OptionsMention(opts[..|opts| - 1], sid) || ScoredId(opts[|opts| - 1]) == Some(sid)
  {
    var init := opts[..|opts| - 1];
    if OptionsMention(opts, sid) {
      var j :| 0 <= j < |opts| && ScoredId(opts[j]) == Some(sid);
      if j < |init| { assert init[j] == opts[j]; }
    }
    if OptionsMention(init, sid) {
      var j :| 0 <= j < |init| && ScoredId(init[j]) == Some(sid);
      assert opts[j] == init[j];
    }
  }

  lemma {:induction false} UnmentionedTotal(opts: seq<PollOption>, sid: string)
    requires !OptionsMention(opts, sid)
    ensures OptionsTotal(opts, sid) == 0
    decreases |opts|
  {
    if |opts| > 0 {
      OptionsMentionSnoc(opts, sid);
      UnmentionedTotal(opts[..|opts| - 1], sid);
    }
  }

  lemma {:induction false} AddOptionScoresMeaning(scores: Scores, opts: seq<PollOption>, sid: string)
    ensures Get(AddOptionScores(scores, opts), sid)
         == if OptionsMention(opts, sid) then Some(Get(scores, sid).GetOr(0) + OptionsTotal(opts, sid))
            else Get(scores, sid)
    decreases |opts|
  {
    if |opts| > 0 {
      var init := opts[..|opts| - 1];
      var o := opts[|opts| - 1];
      var s := AddOptionScores(scores, init);
      var base := Get(scores, sid).GetOr(0);
      assert Get(s, sid) == if OptionsMention(init, sid) then Some(base + OptionsTotal(init, sid)) else Get(scores, sid) by {
        AddOptionScoresMeaning(scores, init, sid);
      }
      assert OptionsMention(opts, sid) <==> OptionsMention(init, sid) || ScoredId(o) == Some(sid) by {
        OptionsMentionSnoc(opts, sid);
      }
      assert !OptionsMention(init, sid) ==> OptionsTotal(init, sid) == 0 by {
        if !OptionsMention(init, sid) {
          UnmentionedTotal(init, sid);
        }
      }
      assert OptionsTotal(opts, sid) == OptionsTotal(init, sid) + (if ScoredId(o) == Some(sid) then Count(o) else 0);
      assert AddOptionScores(scores, opts) == AddOption(s, o);
      AddOptionGet(s, o, sid);
    }
  }

  lemma WindowMentionsSnoc(l: Ledger, since: int, sid: string)
    requires |l| > 0
    ensures WindowMentions(l, since, sid)
        <==> WindowMentions(l[..|l| - 1], since, sid)
             || (InWindow(l[|l| - 1].1, since) && OptionsMention(l[|l| - 1].1.options, sid))
  {
    var init := l[..|l| - 1];
    if WindowMentions(l, since, sid) {
      var i :| 0 <= i < |l| && InWindow(l[i].1, since) && OptionsMention(l[i].1.options, sid);
      if i < |init| { assert init[i] == l[i]; }
    }
    if WindowMentions(init, since, sid) {
      var i :| 0 <= i < |init| && InWindow(init[i].1, since) && OptionsMention(init[i].1.options, sid);
      assert l[i] == init[i];
    }
  }

  lemma {:induction false} UnmentionedWindowTotal(l: Ledger, since: int, sid: string)
    requires !WindowMentions(l, since, sid)
    ensures WindowTotal(l, since, sid) == 0
    decreases |l|
  {
    if |l| > 0 {
      WindowMentionsSnoc(l, since, sid);
      UnmentionedWindowTotal(l[..|l| - 1], since, sid);
      if InWindow(l[|l| - 1].1, since) {
        UnmentionedTotal(l[|l| - 1].1.options, sid);
      }
    }
  }

  /** What `get_daily_scores_since` computes: a suggestion id has an entry
      exactly when some daily poll created at or after `since` (boundary
      included) has an option carrying that id, and the entry is the sum of those
      options' counts. Weekly polls, earlier polls and options without a
      suggestion id contribute nothing. */
  lemma {:induction false} ScoresSinceMeaning(l: Ledger, since: int, sid: string)
    ensures Get(ScoresSince(l, since), sid)
         == if WindowMentions(l, since, sid) then Some(WindowTotal(l, since, sid)) else None
    decreases |l|
  {
    if |l| > 0 {
      var init := l[..|l| - 1];
      var p := l[|l| - 1].1;
      var before := ScoresSince(init, since);
      ScoresSinceMeaning(init, since, sid);
      WindowMentionsSnoc(l, since, sid);
      if !WindowMentions(init, since, sid) {
        UnmentionedWindowTotal(init, since, sid);
      }
      if InWindow(p, since) {
        assert ScoresSince(l, since) == AddOptionScores(before, p.options);
        assert WindowTotal(l, since, sid) == WindowTotal(init, since, sid) + OptionsTotal(p.options, sid);
        AddOptionScoresMeaning(before, p.options, sid);
        if !OptionsMention(p.options, sid) {
          UnmentionedTotal(p.options, sid);
        }
      } else {
        assert ScoresSince(l, since) == before;
        assert WindowTotal(l, since, sid) == WindowTotal(init, since, sid);
      }
    }
  }

  /** The score table never lists a suggestion twice. */
  lemma {:induction false} ScoresSinceUniqueKeys(l: Ledger, since: int)
    ensures UniqueKeys(ScoresSince(l, since))
    decreases |l|
  {
    if |l| > 0 {
      ScoresSinceUniqueKeys(l[..|l| - 1], since);
      var p := l[|l| - 1].1;
      if InWindow(p, since) {
        AddOptionScoresUniqueKeys(ScoresSince(l[..|l| - 1], since), p.options);
      }
    }
  }

  lemma {:induction false} AddOptionScoresUniqueKeys(scores: Scores, opts: seq<PollOption>)
    requires UniqueKeys(scores)
    ensures UniqueKeys(AddOptionScores(scores, opts))
    decreases |opts|
  {
    if |opts| > 0 {
      AddOptionScoresUniqueKeys(scores, opts[..|opts| - 1]);
    }
  }
}

=== FILE: ranking.dfy ===
/** The two leaderboards built from the weekly score table: the championship
    ranking of `run_weekly_poll` (votes descending, then earliest submission)
    and the `/results` ranking of `cmd_results` (votes descending only). */
module Ranking {
  import opened Wrappers
  import opened Dict
  import opened Suggestions
  import opened Polls
  import opened StableSort

  /** How many entries the championship poll offers. */
  const TOP_SIZE: nat := 5

  /** One entry of the championship ranking, joined from the score table and the registry. */
  datatype RankedEntry = RankedEntry(
    suggestionId: string,
    name: string,
    authorId: int,
    authorName: string,
    votes: int,
    submittedAt: int)

  function EntryOf(s: Suggestion, votes: int): RankedEntry {
    RankedEntry(s.id, s.name, s.authorId, s.authorName, votes, s.submittedAt)
  }

  /** The join loop of `run_weekly_poll`: one entry per score whose id still
      resolves, in score-table order. */
  function Resolve(scores: Scores, r: Registry): seq<RankedEntry>
  {
    if |scores| == 0 then []
    else
      (match FindById(r, scores[0].0)
       case None => []
       case Some(s) => [EntryOf(s, scores[0].1)])
      + Resolve(scores[1..], r)
  }

  function EntryIds(es: seq<RankedEntry>): seq<string> {
    if |es| == 0 then [] else [es[0].suggestionId] + EntryIds(es[1..])
  }

  /** Every entry comes from a score whose id resolves, with the registry's
      details and the score's votes; every score whose id resolves gives an
      entry; and the entries keep the score-table order. */
  lemma {:induction false} ResolveMeaning(scores: Scores, r: Registry)
    ensures forall e :: e in Resolve(scores, r) ==>
      exists s :: FindById(r, e.suggestionId) == Some(s) && e == EntryOf(s, e.votes)
                  && (e.suggestionId, e.votes) in scores
    ensures forall i :: 0 <= i < |scores| && FindById(r, scores[i].0).Some? ==>
      EntryOf(FindById(r, scores[i].0).value, scores[i].1) in Resolve(scores, r)
    ensures Subsequence(EntryIds(Resolve(scores, r)), Keys(scores))
  {
    if |scores| > 0 {
      ResolveMeaning(scores[1..], r);
      var head := match FindById(r, scores[0].0) case None => [] case Some(s) => [EntryOf(s, scores[0].1)];
      var tail := Resolve(scores[1..], r);
      assert Resolve(scores, r) == head + tail;
      assert Keys(scores) == [scores[0].0] + Keys(scores[1..]);
      forall i | 0 <= i < |scores| && FindById(r, scores[i].0).Some?
        ensures EntryOf(FindById(r, scores[i].0).value, scores[i].1) in Resolve(scores, r)
      {
        if i > 0 {
          assert scores[1..][i - 1] == scores[i];
        }
      }
      assert Keys(scores)[1..] == Keys(scores[1..]);
      if head == [] {
        assert head + tail == tail;
        SubsequenceSkip(EntryIds(tail), Keys(scores));
      } else {
        var ids := EntryIds(head + tail);
        assert (head + tail)[1..] == tail;
        assert ids == [scores[0].0] + EntryIds(tail);
        assert ids[1..] == EntryIds(tail);
      }
    }
  }

  /** The championship sort key: votes descending, then submission time ascending. */
  function WeeklyKey(e: RankedEntry): Key {
    (-e.votes, e.submittedAt)
  }

  /** The weekly ranking: most votes first, and among equal votes the earliest
      submission first. */
  function RankWeekly(scores: Scores, r: Registry): (ranked: seq<RankedEntry>)
    ensures forall i, j :: 0 <= i < j < |ranked| ==>
      ranked[i].votes > ranked[j].votes
      || (ranked[i].votes == ranked[j].votes && ranked[i].submittedAt <= ranked[j].submittedAt)
    ensures multiset(ranked) == multiset(Resolve(scores, r))
    ensures forall k :: WithKey(ranked, WeeklyKey, k) == WithKey(Resolve(scores, r), WeeklyKey, k)
  {
    var ranked := Sort(Resolve(scores, r), WeeklyKey);
    WeeklyOrder(ranked);
    ranked
  }

  lemma WeeklyOrder(ranked: seq<RankedEntry>)
    requires SortedBy(ranked, WeeklyKey)
    ensures forall i, j :: 0 <= i < j < |ranked| ==>
      ranked[i].votes > ranked[j].votes
      || (ranked[i].votes == ranked[j].votes && ranked[i].submittedAt <= ranked[j].submittedAt)
  {
    forall i, j | 0 <= i < j < |ranked|
      ensures ranked[i].votes > ranked[j].votes
              || (ranked[i].votes == ranked[j].votes && ranked[i].submittedAt <= ranked[j].submittedAt)
    {
      assert KeyLe(WeeklyKey(ranked[i]), WeeklyKey(ranked[j]));
    }
  }

  /** The first five entries of a ranking, or all of them when there are fewer. */
  function Top(ranked: seq<RankedEntry>): (top: seq<RankedEntry>)
    ensures |top| == if |ranked| < TOP_SIZE then |ranked| else TOP_SIZE
    ensures top <= ranked
  {
    if |ranked| < TOP_SIZE then ranked else ranked[..TOP_SIZE]
  }

  /** Nothing outside the top beats anything inside it. */
  lemma TopDominates(scores: Scores, r: Registry)
    ensures var ranked := RankWeekly(scores, r);
      forall i, j :: 0 <= i < |Top(ranked)| <= j < |ranked| ==>
        ranked[i].votes > ranked[j].votes
        || (ranked[i].votes == ranked[j].votes && ranked[i].submittedAt <= ranked[j].submittedAt)
  {
  }

  /** A row of the `/results` leaderboard: the suggestion's name and its votes. */
  function ResultRows(scores: Scores, r: Registry): seq<(string, int)>
  {
    if |scores| == 0 then []
    else
      (match FindById(r, scores[0].0)
       case None => []
       case Some(s) => [(s.name, scores[0].1)])
      + ResultRows(scores[1..], r)
  }

  /** The `/results` sort key: votes descending only. */
  function ResultsKey(row: (string, int)): Key {
    (-row.1, 0)
  }

  /** The `/results` ranking: votes descending; rows with equal
      votes keep their score-table order. */
  function RankResults(scores: Scores, r: Registry): (ranked: seq<(string, int)>)
    ensures forall i, j :: 0 <= i < j < |ranked| ==> ranked[i].1 >= ranked[j].1
    ensures multiset(ranked) == multiset(ResultRows(scores, r))
    ensures forall k :: WithKey(ranked, ResultsKey, k) == WithKey(ResultRows(scores, r), ResultsKey, k)
  {
    var ranked := Sort(ResultRows(scores, r), ResultsKey);
    ResultsOrder(ranked);
    ranked
  }

  lemma ResultsOrder(ranked: seq<(string, int)>)
    requires SortedBy(ranked, ResultsKey)
    ensures forall i, j :: 0 <= i < j < |ranked| ==> ranked[i].1 >= ranked[j].1
  {
    forall i, j | 0 <= i < j < |ranked|
      ensures ranked[i].1 >= ranked[j].1
    {
      assert KeyLe(ResultsKey(ranked[i]), ResultsKey(ranked[j]));
    }
  }
}

=== FILE: scenarios.dfy ===
/** Whole-system walks through the modelled handlers, each a concrete run. */
module Scenarios {
  import opened Wrappers
  import opened Dict
  import opened Text
  import opened Suggestions
  import opened Polls
  import opened Storage
  import opened Votes
  import opened Scheduler
  import opened Bot

  /** Submitting "Foo" and then " foo " stores one record and refuses the second. */
  lemma SameNameTwice(now: int)
    ensures var first := AddSuggestion([], "Foo", "id1", 1, "Ann", now);
      var second := AddSuggestion(first.1, " foo ", "id2", 2, "Bob", now + 1);
      && first.0.Some? && second.0.None?
      && second.1 == [Suggestion("id1", "Foo", 1, "Ann", now, false)]
  {
    StripOfStripped("Foo");
    StripPadded();
    var first := AddSuggestion([], "Foo", "id1", 1, "Ann", now);
    assert Normalize(first.1[0].name) == Normalize(" foo ");
  }

  lemma StripPadded()
    ensures Strip(" foo ") == "foo"
  {
    var padded := " foo ";
    assert padded == [' ', 'f', 'o', 'o', ' '];
    assert LeadStart(padded, 0) == 1;
    assert TrailEnd(padded, 1, 5) == 4;
    assert padded[1..4] == "foo";
  }

  function Alpha(t: int): Suggestion { Suggestion("a", "Alpha", 1, "Ann", t, false) }
  function Beta(t: int): Suggestion { Suggestion("b", "Beta", 2, "Bob", t, false) }

  function Offered(alpha: int, beta: int): seq<PollOption> {
    [PollOption("Alpha", Some("a"), Some(alpha)), PollOption("Beta", Some("b"), Some(beta))]
  }

  lemma SubmitBoth(t: int)
    ensures var r1 := AddSuggestion([], "Alpha", "a", 1, "Ann", t).1;
      AddSuggestion(r1, "Beta", "b", 2, "Bob", t).1 == [Alpha(t), Beta(t)]
  {
    AddFresh([], "Alpha", "a", 1, "Ann", t);
    assert AddSuggestion([], "Alpha", "a", 1, "Ann", t).1 == [Alpha(t)];
    AlphaBetaDiffer();
    AddFresh([Alpha(t)], "Beta", "b", 2, "Bob", t);
  }

  /** A stripped name that matches no record is stored as given. */
  lemma AddFresh(r: Registry, name: string, id: string, authorId: int, authorName: string, now: int)
    requires Stripped(name)
    requires forall i :: 0 <= i < |r| ==> Normalize(r[i].name) != Normalize(name)
    ensures AddSuggestion(r, name, id, authorId, authorName, now).1
         == r + [Suggestion(id, name, authorId, authorName, now, false)]
  {
    StripOfStripped(name);
  }

  lemma AlphaBetaDiffer()
    ensures Normalize("Alpha") != Normalize("Beta")
  {
    StripOfStripped("Alpha");
    StripOfStripped("Beta");
    assert Lower("Alpha")[0] == 'a';
    assert Lower("Beta")[0] == 'b';
  }

  lemma DailyBoth(t: int)
    ensures var st1 := RunDailyPoll(Empty.(suggestions := [Alpha(t), Beta(t)]), [Some(SentPoll("p", 7, t))]);
      && st1.polls == [("p", Poll(7, Offered(0, 0), t, Daily, false))]
      && Unused(st1.suggestions) == []
  {
    var r := [Alpha(t), Beta(t)];
    var st0 := Empty.(suggestions := r);
    assert Unused(r) == r by {
      assert Unused(r[1..]) == r[1..];
    }
    assert Chunks(r) == [r];
    assert DailyOptions(r) == Offered(0, 0);
    var poll := Poll(7, Offered(0, 0), t, Daily, false);
    assert SetRaw([], "p", poll) == [("p", poll)];
    assert SavePoll([], "p", 7, Offered(0, 0), Daily, t) == [("p", poll)];
    var st1 := st0.(polls := [("p", poll)], suggestions := MarkUsed(r, Ids(r)));
    assert [r][1..] == [];
    assert SendDailyChunks(st0, [r], [Some(SentPoll("p", 7, t))]) == SendDailyChunks(st1, [], []) == st1;
    DailyRunMarks(st0, [Some(SentPoll("p", 7, t))]);
  }

  /** A ledger holding only poll "p", which is `p` up to its options' counts. */
  predicate OnlyPollLike(l: Ledger, p: Poll) {
    && Keys(l) == ["p"]
    && Get(l, "p").Some?
    && var v := Get(l, "p").value;
    && v.(options := p.options) == p
    && |v.options| == |p.options|
    && forall j :: 0 <= j < |p.options| ==>
         v.options[j].text == p.options[j].text && v.options[j].suggestionId == p.options[j].suggestionId
  }

  lemma VoteFirst(t: int)
    ensures var l' := OnPollAnswer(map[], [("p", Poll(7, Offered(0, 0), t, Daily, false))], 42, "p", [0]).1;
      && OnlyPollLike(l', Poll(7, Offered(0, 0), t, Daily, false))
      && Count(Get(l', "p").value.options[0]) == 1
  {
    assert Without([0], []) == [0];
    assert Without([], [0]) == [];
    assert Keys([("p", Poll(7, Offered(0, 0), t, Daily, false))]) == ["p"];
  }

  lemma CloseWithCounts(l: Ledger, t: int)
    requires OnlyPollLike(l, Poll(7, Offered(0, 0), t, Daily, false))
    ensures OnPollUpdate(l, PollUpdate("p", true, [1, 0])) == [("p", Poll(7, Offered(1, 0), t, Daily, true))]
  {
    var l' := OnPollUpdate(l, PollUpdate("p", true, [1, 0]));
    var p' := Get(l', "p").value;
    assert p'.options == Offered(1, 0);
    assert p' == Poll(7, Offered(1, 0), t, Daily, true);
    assert Keys(l') == ["p"];
    GetPosition(l', "p");
  }

  lemma WeekLater(t: int)
    ensures var scores := ScoresSince([("p", Poll(7, Offered(1, 0), t, Daily, true))], t);
      Get(scores, "a") == Some(1) && Get(scores, "b") == Some(0)
  {
    var l := [("p", Poll(7, Offered(1, 0), t, Daily, true))];
    ScoresSinceMeaning(l, t, "a");
    ScoresSinceMeaning(l, t, "b");
    assert l[..0] == [];
    assert OptionsTotal(Offered(1, 0), "a") == 1 by {
      assert Offered(1, 0)[..1] == [PollOption("Alpha", Some("a"), Some(1))];
    }
    assert OptionsTotal(Offered(1, 0), "b") == 0 by {
      assert Offered(1, 0)[..1] == [PollOption("Alpha", Some("a"), Some(1))];
    }
    assert OptionsMention(Offered(1, 0), "a") && OptionsMention(Offered(1, 0), "b") by {
      assert ScoredId(Offered(1, 0)[0]) == Some("a");
      assert ScoredId(Offered(1, 0)[1]) == Some("b");
    }
    assert InWindow(l[0].1, t);
  }

  /** Two suggestions, a daily poll over both, voter 42 picking the first
      option, the poll closing with counts [1, 0], and the scores read back a
      week later, whose window starts at the poll's creation: "Alpha" has one
      vote, "Beta" none, and no suggestion is left unused. */
  lemma DailyRoundTrip(t: int)
    ensures var r1 := AddSuggestion([], "Alpha", "a", 1, "Ann", t).1;
      var r2 := AddSuggestion(r1, "Beta", "b", 2, "Bob", t).1;
      var st1 := RunDailyPoll(Empty.(suggestions := r2), [Some(SentPoll("p", 7, t))]);
      var voted := OnPollAnswer(map[], st1.polls, 42, "p", [0]);
      var closed := OnPollUpdate(voted.1, PollUpdate("p", true, [1, 0]));
      var scores := ScoresSince(closed, (t + 7 * MICROS_PER_DAY) - 7 * MICROS_PER_DAY);
      && Unused(st1.suggestions) == []
      && Get(voted.1, "p").Some? && |Get(voted.1, "p").value.options| == 2
      && Count(Get(voted.1, "p").value.options[0]) == 1
      && Get(scores, "a") == Some(1)
      && Get(scores, "b") == Some(0)
  {
    SubmitBoth(t);
    var r2 := [Alpha(t), Beta(t)];
    DailyBoth(t);
    var st1 := RunDailyPoll(Empty.(suggestions := r2), [Some(SentPoll("p", 7, t))]);
    var l1 := [("p", Poll(7, Offered(0, 0), t, Daily, false))];
    assert st1.polls == l1;
    VoteFirst(t);
    var voted := OnPollAnswer(map[], l1, 42, "p", [0]);
    CloseWithCounts(voted.1, t);
    var closed := OnPollUpdate(voted.1, PollUpdate("p", true, [1, 0]));
    assert closed == [("p", Poll(7, Offered(1, 0), t, Daily, true))];
    assert (t + 7 * MICROS_PER_DAY) - 7 * MICROS_PER_DAY == t;
    WeekLater(t);
  }
}

=== FILE: scheduler.dfy ===
/** The poll lifecycle of `scheduler.py`: the daily poll over unused
    suggestions, the weekly championship over the week's daily scores, and the
    delayed author reveal. Telegram's replies (the assigned poll id and message
    id, or a failed send) and the clock are parameters. */
module Scheduler {
  import opened Wrappers
  import opened Dict
  import opened Suggestions
  import opened Polls
  import opened Ranking
  import opened Weekly
  import opened Storage

  /** Telegram allows at most ten options per poll. */
  const MAX_POLL_OPTIONS: nat := 10

  // ---------------------------------------------------------------------------
  // Chunking
  // ---------------------------------------------------------------------------

  /** Cuts a list into consecutive slices of ten, the last one possibly shorter. */
  function Chunks<T>(s: seq<T>): (cs: seq<seq<T>>)
    ensures forall i :: 0 <= i < |cs| ==> 0 < |cs[i]| <= MAX_POLL_OPTIONS
    ensures forall i :: 0 <= i < |cs| - 1 ==> |cs[i]| == MAX_POLL_OPTIONS
    decreases |s|
  {
    if |s| == 0 then []
    else if |s| <= MAX_POLL_OPTIONS then [s]
    else [s[..MAX_POLL_OPTIONS]] + Chunks(s[MAX_POLL_OPTIONS..])
  }

  function Flatten<T>(cs: seq<seq<T>>): seq<T> {
    if |cs| == 0 then [] else cs[0] + Flatten(cs[1..])
  }

  /** Concatenating the chunks gives back the list, in order. */
  lemma {:induction false} FlattenChunks<T>(s: seq<T>)
    ensures Flatten(Chunks(s)) == s
    decreases |s|
  {
    if |s| > MAX_POLL_OPTIONS {
      FlattenChunks(s[MAX_POLL_OPTIONS..]);
      assert Chunks(s)[1..] == Chunks(s[MAX_POLL_OPTIONS..]);
      assert s == s[..MAX_POLL_OPTIONS] + s[MAX_POLL_OPTIONS..];
    }
  }

  /** The end of the i-th slice of a list of length `len`. */
  function SliceEnd(i: nat, len: nat): nat {
    if (i + 1) * MAX_POLL_OPTIONS < len then (i + 1) * MAX_POLL_OPTIONS else len
  }

  /** There are `ceil(|s| / 10)` chunks, and the i-th is the slice starting at
      `10 * i`. */
  lemma ChunksAreSlices<T>(s: seq<T>)
    ensures |Chunks(s)| == (|s| + MAX_POLL_OPTIONS - 1) / MAX_POLL_OPTIONS
    ensures forall i :: 0 <= i < |Chunks(s)| ==>
      i * MAX_POLL_OPTIONS < |s| && Chunks(s)[i] == s[i * MAX_POLL_OPTIONS .. SliceEnd(i, |s|)]
  {
    ChunkCount(s);
    forall i | 0 <= i < |Chunks(s)|
      ensures i * MAX_POLL_OPTIONS < |s| && Chunks(s)[i] == s[i * MAX_POLL_OPTIONS .. SliceEnd(i, |s|)]
    {
      ChunkAt(s, i);
    }
  }

  lemma {:induction false} ChunkCount<T>(s: seq<T>)
    ensures |Chunks(s)| == (|s| + MAX_POLL_OPTIONS - 1) / MAX_POLL_OPTIONS
    decreases |s|
  {
    if |s| > MAX_POLL_OPTIONS {
      ChunkCount(s[MAX_POLL_OPTIONS..]);
    }
  }

  lemma {:induction false} ChunkAt<T>(s: seq<T>, i: nat)
    requires i < |Chunks(s)|
    ensures i * MAX_POLL_OPTIONS < |s| && Chunks(s)[i] == s[i * MAX_POLL_OPTIONS .. SliceEnd(i, |s|)]
    decreases i
  {
    if i > 0 {
      var rest := s[MAX_POLL_OPTIONS..];
      assert Chunks(s)[i] == Chunks(rest)[i - 1];
      ChunkAt(rest, i - 1);
      assert SliceEnd(i, |s|) == SliceEnd(i - 1, |rest|) + MAX_POLL_OPTIONS;
    }
  }

  // ---------------------------------------------------------------------------
  // Daily poll
  // ---------------------------------------------------------------------------

  /** What a successful `send_poll` leaves: the poll id Telegram assigned, the
      id of the message carrying the poll, and the clock reading `save_poll`
      takes once the send has returned (the poll's creation time). */
  datatype SentPoll = SentPoll(pollId: string, messageId: int, savedAt: int)

  function Ids(chunk: seq<Suggestion>): (ids: seq<string>)
    ensures |ids| == |chunk|
    ensures forall i :: 0 <= i < |chunk| ==> ids[i] == chunk[i].id
  {
    if |chunk| == 0 then [] else [chunk[0].id] + Ids(chunk[1..])
  }

  /** The options of a daily poll: one per suggestion of the chunk, in order,
      with its name, its id and a zero count. */
  function DailyOptions(chunk: seq<Suggestion>): (opts: seq<PollOption>)
    ensures |opts| == |chunk|
    ensures forall i :: 0 <= i < |chunk| ==>
      opts[i] == PollOption(chunk[i].name, Some(chunk[i].id), Some(0))
  {
    if |chunk| == 0 then []
    else [PollOption(chunk[0].name, Some(chunk[0].id), Some(0))] + DailyOptions(chunk[1..])
  }

  /** The number of chunks whose poll went out: sending stops at the first
      failed send (the exception ends the run) or when no reply is left. */
  function Delivered(chunks: nat, replies: seq<Option<SentPoll>>): (d: nat)
    ensures d <= chunks && d <= |replies|
    ensures forall k :: 0 <= k < d ==> replies[k].Some?
    ensures d < chunks && d < |replies| ==> replies[d].None?
  {
    if chunks == 0 || |replies| == 0 || replies[0].None? then 0
    else 1 + Delivered(chunks - 1, replies[1..])
  }

  /** The loop of `run_daily_poll`: per chunk, send the poll, register it as a
      daily poll and mark the chunk's suggestions used. */
  function SendDailyChunks(st: Store, chunks: seq<seq<Suggestion>>, replies: seq<Option<SentPoll>>)
    : (st': Store)
    ensures st'.weekly == st.weekly && st'.subscribers == st.subscribers
    decreases |chunks|
  {
    if |chunks| == 0 || |replies| == 0 || replies[0].None? then st
    else SendDailyChunks(SendChunk(st, chunks[0], replies[0].value), chunks[1..], replies[1..])
  }

  /** One chunk of the daily run once its poll is out: the poll is registered
      and the chunk's suggestions are marked used. */
  function SendChunk(st: Store, chunk: seq<Suggestion>, sent: SentPoll): Store {
    st.(polls := SavePoll(st.polls, sent.pollId, sent.messageId, DailyOptions(chunk), Daily, sent.savedAt),
        suggestions := MarkUsed(st.suggestions, Ids(chunk)))
  }

  /** `run_daily_poll`: nothing happens when no suggestion is unused; otherwise
      the unused suggestions go out in chunks of at most ten. */
  function RunDailyPoll(st: Store, replies: seq<Option<SentPoll>>): (st': Store)
    ensures Unused(st.suggestions) == [] ==> st' == st
    ensures st'.weekly == st.weekly && st'.subscribers == st.subscribers
  {
    var unused := Unused(st.suggestions);
    if unused == [] then st
    else SendDailyChunks(st, Chunks(unused), replies)
  }

  /** Marking in two steps is marking the union once. */
  lemma MarkUsedTwice(r: Registry, a: seq<string>, b: seq<string>)
    ensures MarkUsed(MarkUsed(r, a), b) == MarkUsed(r, a + b)
  {
    var lhs := MarkUsed(MarkUsed(r, a), b);
    var rhs := MarkUsed(r, a + b);
    forall i | 0 <= i < |r| ensures lhs[i] == rhs[i] {
      assert r[i].id in a + b <==> r[i].id in a || r[i].id in b;
    }
  }

  lemma IdsAppend(a: seq<Suggestion>, b: seq<Suggestion>)
    ensures Ids(a + b) == Ids(a) + Ids(b)
  {
  }

  lemma FlattenPrefix(chunks: seq<seq<Suggestion>>, d: nat)
    requires 0 < d <= |chunks|
    ensures Ids(Flatten(chunks[..d])) == Ids(chunks[0]) + Ids(Flatten(chunks[1..][..d - 1]))
  {
    assert chunks[..d] == [chunks[0]] + chunks[1..][..d - 1];
    assert Flatten(chunks[..d]) == chunks[0] + Flatten(chunks[1..][..d - 1]);
    IdsAppend(chunks[0], Flatten(chunks[1..][..d - 1]));
  }

  /** The suggestions marked used by a daily run are exactly those of the
      chunks whose poll went out. */
  lemma {:induction false} SendDailyMarks(st: Store, chunks: seq<seq<Suggestion>>, replies: seq<Option<SentPoll>>)
    ensures SendDailyChunks(st, chunks, replies).suggestions
         == MarkUsed(st.suggestions, Ids(Flatten(chunks[..Delivered(|chunks|, replies)])))
    decreases |chunks|
  {
    var d := Delivered(|chunks|, replies);
    if d == 0 {
      assert MarkUsed(st.suggestions, []) == st.suggestions;
    } else {
      var st1 := SendChunk(st, chunks[0], replies[0].value);
      SendDailyMarks(st1, chunks[1..], replies[1..]);
      assert Delivered(|chunks[1..]|, replies[1..]) == d - 1;
      FlattenPrefix(chunks, d);
      MarkUsedTwice(st.suggestions, Ids(chunks[0]), Ids(Flatten(chunks[1..][..d - 1])));
    }
  }

  /** When every chunk's poll goes out, every suggestion that was unused is
      marked used and none is left unused. When some send fails, exactly the
      suggestions of the chunks sent before it are marked. */
  lemma DailyRunMarks(st: Store, replies: seq<Option<SentPoll>>)
    ensures var unused := Unused(st.suggestions);
      var d := Delivered(|Chunks(unused)|, replies);
      RunDailyPoll(st, replies).suggestions == MarkUsed(st.suggestions, Ids(Flatten(Chunks(unused)[..d])))
    ensures Delivered(|Chunks(Unused(st.suggestions))|, replies) == |Chunks(Unused(st.suggestions))| ==>
      && RunDailyPoll(st, replies).suggestions == MarkUsed(st.suggestions, Ids(Unused(st.suggestions)))
      && Unused(RunDailyPoll(st, replies).suggestions) == []
  {
    var unused := Unused(st.suggestions);
    var cs := Chunks(unused);
    if unused == [] {
      assert MarkUsed(st.suggestions, []) == st.suggestions;
    } else {
      SendDailyMarks(st, cs, replies);
    }
    if Delivered(|cs|, replies) == |cs| {
      assert cs[..|cs|] == cs;
      FlattenChunks(unused);
      NoneLeftUnused(st.suggestions);
    }
  }

  /** Marking the ids of all unused records leaves none unused. */
  lemma NoneLeftUnused(r: Registry)
    ensures Unused(MarkUsed(r, Ids(Unused(r)))) == []
  {
    var u := Unused(r);
    var r' := MarkUsed(r, Ids(u));
    UnusedMeaning(r);
    UnusedMeaning(r');
    forall i | 0 <= i < |r| ensures r'[i].usedInDaily {
      if !r[i].usedInDaily {
        assert r[i] in u;
        var k :| 0 <= k < |u| && u[k] == r[i];
        assert Ids(u)[k] == r[i].id;
      }
    }
  }

  /** The polls of the ids Telegram assigned to the first `d` sends. */
  predicate DistinctPollIds(replies: seq<Option<SentPoll>>, d: nat)
    requires d <= |replies|
    requires forall k :: 0 <= k < d ==> replies[k].Some?
  {
    forall a, b :: 0 <= a < b < d ==> replies[a].value.pollId != replies[b].value.pollId
  }

  /** Each chunk whose poll went out is registered, under the id Telegram
      assigned, as an open daily poll created at that send's save time whose options mirror the
      chunk; the polls of other ids are untouched. Needs the assigned ids to be
      distinct (a repeated id would overwrite the earlier registration). */
  lemma {:induction false} SendDailyRegisters(st: Store, chunks: seq<seq<Suggestion>>, replies: seq<Option<SentPoll>>)
    requires DistinctPollIds(replies, Delivered(|chunks|, replies))
    ensures var d := Delivered(|chunks|, replies);
      var l' := SendDailyChunks(st, chunks, replies).polls;
      && (forall k :: 0 <= k < d ==>
            Get(l', replies[k].value.pollId)
              == Some(Poll(replies[k].value.messageId, DailyOptions(chunks[k]), replies[k].value.savedAt, Daily, false)))
      && (forall id :: (forall k :: 0 <= k < d ==> replies[k].value.pollId != id) ==> Get(l', id) == Get(st.polls, id))
    decreases |chunks|
  {
    var d := Delivered(|chunks|, replies);
    if d > 0 {
      var sent := replies[0].value;
      var st1 := SendChunk(st, chunks[0], sent);
      var rest := replies[1..];
      assert Delivered(|chunks[1..]|, rest) == d - 1;
      assert forall k :: 0 <= k < d - 1 ==> rest[k] == replies[k + 1];
      SendDailyRegisters(st1, chunks[1..], rest);
      var l' := SendDailyChunks(st, chunks, replies).polls;
      assert l' == SendDailyChunks(st1, chunks[1..], rest).polls;
      forall k | 0 <= k < d
        ensures Get(l', replies[k].value.pollId)
              == Some(Poll(replies[k].value.messageId, DailyOptions(chunks[k]), replies[k].value.savedAt, Daily, false))
      {
        if k == 0 {
          assert forall m :: 0 <= m < d - 1 ==> rest[m].value.pollId != sent.pollId;
        } else {
          assert chunks[1..][k - 1] == chunks[k];
        }
      }
    }
  }

  /** The daily run registers the k-th chunk of the unused suggestions under the
      k-th assigned id, for every chunk sent before the first failure, and leaves
      the polls of every other id untouched. */
  lemma DailyRunRegisters(st: Store, replies: seq<Option<SentPoll>>)
    requires DistinctPollIds(replies, Delivered(|Chunks(Unused(st.suggestions))|, replies))
    ensures var cs := Chunks(Unused(st.suggestions));
      var d := Delivered(|cs|, replies);
      var l' := RunDailyPoll(st, replies).polls;
      && (forall k :: 0 <= k < d ==>
            Get(l', replies[k].value.pollId)
              == Some(Poll(replies[k].value.messageId, DailyOptions(cs[k]), replies[k].value.savedAt, Daily, false)))
      && (forall id :: (forall k :: 0 <= k < d ==> replies[k].value.pollId != id) ==> Get(l', id) == Get(st.polls, id))
  {
    if Unused(st.suggestions) != [] {
      SendDailyRegisters(st, Chunks(Unused(st.suggestions)), replies);
    }
  }

  // ---------------------------------------------------------------------------
  // Weekly poll
  // ---------------------------------------------------------------------------

  /** Times are counted in microseconds: the stored ISO timestamps carry
      microseconds, and with a fixed UTC offset they order like these integers. */
  const MICROS_PER_SECOND: int := 1000000
  const MICROS_PER_HOUR: int := 3600 * MICROS_PER_SECOND
  const MICROS_PER_DAY: int := 24 * MICROS_PER_HOUR

  /** The reveal delay, in hours, used when the configuration does not set one. */
  const DEFAULT_REVEAL_DELAY_HOURS: int := 6

  /** The scheduler's job table: job id to the time the job is due. Adding a
      job under an existing id replaces it (`replace_existing=True`). */
  type Jobs = Dict<string, int>

  function RevealJobId(pollId: string): string {
    "reveal_" + pollId
  }

  /** The options of the championship poll: the top entries in order, with
      zero counts. */
  function WeeklyOptions(top: seq<RankedEntry>): (opts: seq<PollOption>)
    ensures |opts| == |top|
    ensures forall i :: 0 <= i < |top| ==>
      opts[i] == PollOption(top[i].name, Some(top[i].suggestionId), Some(0))
  {
    if |top| == 0 then []
    else [PollOption(top[0].name, Some(top[0].suggestionId), Some(0))] + WeeklyOptions(top[1..])
  }

  /** The championship line-up at time `now`: the week's daily scores resolved
      against the registry, ranked, cut to five. */
  function Championship(st: Store, now: int): seq<RankedEntry> {
    Top(RankWeekly(ScoresSince(st.polls, now - 7 * MICROS_PER_DAY), st.suggestions))
  }

  /** `run_weekly_poll`. The window is read from the clock before the send
      (`now`); the result record and the reveal time read it again afterwards
      (`resultAt`, `revealFrom`), and the poll's own creation time is the
      reply's `savedAt`. With no scores in the window, no resolvable entry or a
      failed send, nothing changes. Otherwise the line-up is launched. */
  function RunWeeklyPoll(st: Store, jobs: Jobs, now: int, reply: Option<SentPoll>, resultAt: int, revealFrom: int,
                         revealDelayHours: Option<int>)
    : (res: (Store, Jobs))
    ensures ScoresSince(st.polls, now - 7 * MICROS_PER_DAY) == [] ==> res == (st, jobs)
    ensures Championship(st, now) == [] ==> res == (st, jobs)
    ensures reply.None? ==> res == (st, jobs)
    ensures Championship(st, now) != [] && reply.Some? ==>
      res == LaunchChampionship(st, jobs, Championship(st, now), reply.value, resultAt, revealFrom,
                                revealDelayHours.GetOr(DEFAULT_REVEAL_DELAY_HOURS))
  {
    var scores := ScoresSince(st.polls, now - 7 * MICROS_PER_DAY);
    if scores == [] then (st, jobs)
    else
      var top := Top(RankWeekly(scores, st.suggestions));
      if top == [] || reply.None? then (st, jobs)
      else LaunchChampionship(st, jobs, top, reply.value, resultAt, revealFrom, revealDelayHours.GetOr(DEFAULT_REVEAL_DELAY_HOURS))
  }

  /** What a sent championship poll leaves behind: the poll registered as an
      open weekly poll created at its save time whose options are the line-up in
      order with zero counts; its result record, unrevealed and stamped
      `resultAt`, appended as the latest one; and the reveal job for this poll
      due `delayHours` after `revealFrom`, replacing any job of that
      name. Suggestions, subscribers, other polls, earlier results and other
      jobs are untouched. */
  function LaunchChampionship(st: Store, jobs: Jobs, top: seq<RankedEntry>, sent: SentPoll, resultAt: int, revealFrom: int,
                              delayHours: int)
    : (res: (Store, Jobs))
    ensures res.0.suggestions == st.suggestions && res.0.subscribers == st.subscribers
    ensures Get(res.0.polls, sent.pollId) == Some(Poll(sent.messageId, WeeklyOptions(top), sent.savedAt, Weekly, false))
    ensures forall id :: id != sent.pollId ==> Get(res.0.polls, id) == Get(st.polls, id)
    ensures Latest(res.0.weekly) == Some(WeeklyResult(sent.pollId, resultAt, top, false))
    ensures |res.0.weekly| == |st.weekly| + 1 && res.0.weekly[..|st.weekly|] == st.weekly
    ensures Get(res.1, "reveal_" + sent.pollId) == Some(revealFrom + delayHours * 3600 * 1000000)
    ensures forall id :: id != "reveal_" + sent.pollId ==> Get(res.1, id) == Get(jobs, id)
  {
    var w := WeeklyResult(sent.pollId, resultAt, top, false);
    LatestAfterAdd(st.weekly, w);
    (st.(polls := SavePoll(st.polls, sent.pollId, sent.messageId, WeeklyOptions(top), Weekly, sent.savedAt),
         weekly := AddWeeklyResult(st.weekly, w)),
     Set(jobs, RevealJobId(sent.pollId), revealFrom + delayHours * MICROS_PER_HOUR))
  }

  /** Every line-up entry names a registered suggestion with its registry
      details and the votes it collected in the week's daily polls; there are at
      most five, in championship order. */
  lemma ChampionshipMeaning(st: Store, now: int)
    ensures var top := Championship(st, now);
      var since := now - 7 * MICROS_PER_DAY;
      && |top| <= TOP_SIZE
      && (forall i, j :: 0 <= i < j < |top| ==>
            top[i].votes > top[j].votes
            || (top[i].votes == top[j].votes && top[i].submittedAt <= top[j].submittedAt))
      && forall e :: e in top ==>
           && FindById(st.suggestions, e.suggestionId).Some?
           && e == EntryOf(FindById(st.suggestions, e.suggestionId).value, e.votes)
           && WindowMentions(st.polls, since, e.suggestionId)
           && e.votes == WindowTotal(st.polls, since, e.suggestionId)
  {
    var since := now - 7 * MICROS_PER_DAY;
    var scores := ScoresSince(st.polls, since);
    var ranked := RankWeekly(scores, st.suggestions);
    var top := Championship(st, now);
    forall e | e in top
      ensures && FindById(st.suggestions, e.suggestionId).Some?
              && e == EntryOf(FindById(st.suggestions, e.suggestionId).value, e.votes)
              && WindowMentions(st.polls, since, e.suggestionId)
              && e.votes == WindowTotal(st.polls, since, e.suggestionId)
    {
      assert e in ranked;
      assert e in multiset(ranked);
      EntryMeaning(st.polls, since, st.suggestions, e);
    }
  }

  /** An entry resolved from the window's scores is a registered suggestion
      carrying its window total. */
  lemma EntryMeaning(l: Ledger, since: int, r: Registry, e: RankedEntry)
    requires e in Resolve(ScoresSince(l, since), r)
    ensures && FindById(r, e.suggestionId).Some?
            && e == EntryOf(FindById(r, e.suggestionId).value, e.votes)
            && WindowMentions(l, since, e.suggestionId)
            && e.votes == WindowTotal(l, since, e.suggestionId)
  {
    var scores := ScoresSince(l, since);
    ResolveMeaning(scores, r);
    ScoresSinceUniqueKeys(l, since);
    var i :| 0 <= i < |scores| && scores[i] == (e.suggestionId, e.votes);
    GetUnique(scores, i);
    ScoresSinceMeaning(l, since, e.suggestionId);
  }

  // ---------------------------------------------------------------------------
  // Author reveal
  // ---------------------------------------------------------------------------

  /** One line of the reveal announcement: a name, its final votes, its author. */
  datatype RevealLine = RevealLine(name: string, votes: int, authorName: string)

  /** `final_counts`: each option's count under its suggestion id, a later
      option overwriting an earlier one with the same id. `None` when an option
      has no suggestion id, where the source's lookup of the missing id raises. */
  function FinalCounts(opts: seq<PollOption>): (fc: Option<Dict<string, int>>)
    ensures fc.Some? <==> forall i :: 0 <= i < |opts| ==> opts[i].suggestionId.Some?
    decreases |opts|
  {
    if |opts| == 0 then Some([])
    else
      var init := FinalCounts(opts[..|opts| - 1]);
      var o := opts[|opts| - 1];
      if init.None? || o.suggestionId.None? then None
      else Some(Set(init.value, o.suggestionId.value, Count(o)))
  }

  /** The count of the last option carrying `sid`, if any does. */
  function LastCountFor(opts: seq<PollOption>, sid: string): Option<int> {
    if |opts| == 0 then None
    else if opts[|opts| - 1].suggestionId == Some(sid) then Some(Count(opts[|opts| - 1]))
    else LastCountFor(opts[..|opts| - 1], sid)
  }

  /** The final counts look up, for each id, the last option carrying it. */
  lemma {:induction false} FinalCountsMeaning(opts: seq<PollOption>, sid: string)
    requires FinalCounts(opts).Some?
    ensures Get(FinalCounts(opts).value, sid) == LastCountFor(opts, sid)
    decreases |opts|
  {
    if |opts| > 0 {
      FinalCountsMeaning(opts[..|opts| - 1], sid);
    }
  }

  /** The final counts of the weekly poll, or none at all when its record is missing. */
  function PollCounts(l: Ledger, pollId: string): Option<Dict<string, int>> {
    match Get(l, pollId)
    case None => Some([])
    case Some(p) => FinalCounts(p.options)
  }

  /** The announcement lines, in line-up order, votes taken from the final
      counts and falling back to the snapshot. */
  function RevealLines(top: seq<RankedEntry>, counts: Dict<string, int>): (lines: seq<RevealLine>)
    ensures |lines| == |top|
    ensures forall i :: 0 <= i < |top| ==>
      lines[i] == RevealLine(top[i].name, Get(counts, top[i].suggestionId).GetOr(top[i].votes), top[i].authorName)
  {
    if |top| == 0 then []
    else
      [RevealLine(top[0].name, Get(counts, top[0].suggestionId).GetOr(top[0].votes), top[0].authorName)]
      + RevealLines(top[1..], counts)
  }

  /** `run_author_reveal`, with `delivered` telling whether Telegram accepted
      the announcement. Returns the store and the announcement made, if any:
      nothing happens without an unrevealed latest result, when an option of
      the weekly poll lacks its suggestion id, or when the send fails;
      otherwise the lines are announced and the latest result marked revealed. */
  function RunAuthorReveal(st: Store, delivered: bool): (res: (Store, Option<seq<RevealLine>>))
    ensures Latest(st.weekly).None? ==> res == (st, None)
    ensures Latest(st.weekly).Some? && Latest(st.weekly).value.revealed ==> res == (st, None)
    ensures !delivered ==> res == (st, None)
    ensures res.1.None? ==> res.0 == st
    ensures res.1.Some? ==>
      && res.0 == st.(weekly := MarkLatestRevealed(st.weekly))
      && |res.1.value| == |Latest(st.weekly).value.top|
    ensures res.1.Some? <==>
      && Latest(st.weekly).Some? && !Latest(st.weekly).value.revealed
      && PollCounts(st.polls, Latest(st.weekly).value.pollId).Some? && delivered
    ensures res.1.Some? ==>
      res.1 == Some(RevealLines(Latest(st.weekly).value.top,
                                PollCounts(st.polls, Latest(st.weekly).value.pollId).value))
  {
    match Latest(st.weekly)
    case None => (st, None)
    case Some(w) =>
      if w.revealed then (st, None)
      else
        match PollCounts(st.polls, w.pollId)
        case None => (st, None)
        case Some(counts) =>
          if !delivered then (st, None)
          else (st.(weekly := MarkLatestRevealed(st.weekly)), Some(RevealLines(w.top, counts)))
  }

  /** The reveal announces at most once: right after an announcement, a second
      run does nothing. */
  lemma RevealAtMostOnce(st: Store, delivered: bool, again: bool)
    requires RunAuthorReveal(st, delivered).1.Some?
    ensures var st' := RunAuthorReveal(st, delivered).0;
      && Latest(st'.weekly).Some? && Latest(st'.weekly).value.revealed
      && RunAuthorReveal(st', again) == (st', None)
  {
  }

  /** Each announced line carries the entry's name and author, and as votes
      the count of the weekly poll's last option for the entry's suggestion, or
      the snapshot's votes when the poll record is missing or has no such
      option. */
  lemma RevealVotes(st: Store, delivered: bool)
    requires RunAuthorReveal(st, delivered).1.Some?
    ensures var w := Latest(st.weekly).value;
      var lines := RunAuthorReveal(st, delivered).1.value;
      forall i :: 0 <= i < |w.top| ==>
        && lines[i].name == w.top[i].name
        && lines[i].authorName == w.top[i].authorName
        && lines[i].votes == match Get(st.polls, w.pollId)
             case None => w.top[i].votes
             case Some(p) => LastCountFor(p.options, w.top[i].suggestionId).GetOr(w.top[i].votes)
  {
    var w := Latest(st.weekly).value;
    match Get(st.polls, w.pollId)
    case None =>
    case Some(p) =>
      forall i | 0 <= i < |w.top| {
        FinalCountsMeaning(p.options, w.top[i].suggestionId);
      }
  }

  /** If every option's count is zero, any id carried by an option finds zero. */
  lemma {:induction false} LastCountOfZeros(opts: seq<PollOption>, i: int)
    requires forall k :: 0 <= k < |opts| ==> Count(opts[k]) == 0
    requires 0 <= i < |opts| && opts[i].suggestionId.Some?
    ensures LastCountFor(opts, opts[i].suggestionId.value) == Some(0)
    decreases |opts|
  {
    if i < |opts| - 1 && opts[|opts| - 1].suggestionId != opts[i].suggestionId {
      LastCountOfZeros(opts[..|opts| - 1], i);
    }
  }

  /** A championship revealed before anyone votes announces its line-up in
      order, with each author and zero votes. */
  lemma RevealWithoutVotes(st: Store, jobs: Jobs, now: int, sent: SentPoll, resultAt: int, revealFrom: int,
                           revealDelayHours: Option<int>)
    requires Championship(st, now) != []
    ensures var st' := RunWeeklyPoll(st, jobs, now, Some(sent), resultAt, revealFrom, revealDelayHours).0;
      var top := Championship(st, now);
      var lines := RunAuthorReveal(st', true).1;
      && lines.Some?
      && |lines.value| == |top|
      && forall i :: 0 <= i < |top| ==> lines.value[i] == RevealLine(top[i].name, 0, top[i].authorName)
  {
    var st' := RunWeeklyPoll(st, jobs, now, Some(sent), resultAt, revealFrom, revealDelayHours).0;
    var top := Championship(st, now);
    var opts := WeeklyOptions(top);
    assert PollCounts(st'.polls, sent.pollId) == FinalCounts(opts);
    var lines := RunAuthorReveal(st', true).1;
    forall i | 0 <= i < |top| ensures lines.value[i] == RevealLine(top[i].name, 0, top[i].authorName) {
      LastCountOfZeros(opts, i);
      FinalCountsMeaning(opts, top[i].suggestionId);
    }
  }
}

=== FILE: stable_sort.dfy ===
/** Python's list sort with a key of two integers: a stable sort.
    The result is ordered by key, is a permutation of the input, and keeps the
    input order among elements whose keys are equal. */
module StableSort {

  /** A sort key `(k0, k1)`, compared lexicographically as Python compares tuples. */
  type Key = (int, int)

  predicate KeyLe(a: Key, b: Key) {
    a.0 < b.0 || (a.0 == b.0 && a.1 <= b.1)
  }

  predicate SortedBy<T>(s: seq<T>, key: T -> Key) {
    forall i, j :: 0 <= i < j < |s| ==> KeyLe(key(s[i]), key(s[j]))
  }

  /** The elements of `s` whose key is `k`, in their order in `s`. */
  function WithKey<T>(s: seq<T>, key: T -> Key, k: Key): seq<T> {
    if |s| == 0 then []
    else (if key(s[0]) == k then [s[0]] else []) + WithKey(s[1..], key, k)
  }

  /** Puts `x` in front of the first element whose key is not smaller than its own. */
  function Insert<T>(x: T, s: seq<T>, key: T -> Key): seq<T> {
    if |s| == 0 then [x]
    else if KeyLe(key(x), key(s[0])) then [x] + s
    else [s[0]] + Insert(x, s[1..], key)
  }

  /** `s` sorted stably by `key`. */
  function Sort<T(==)>(s: seq<T>, key: T -> Key): (r: seq<T>)
    ensures SortedBy(r, key)
    ensures multiset(r) == multiset(s)
    ensures forall k :: WithKey(r, key, k) == WithKey(s, key, k)
  {
    if |s| == 0 then []
    else
      var t := Sort(s[1..], key);
      InsertSorted(s[0], t, key);
      InsertMultiset(s[0], t, key);
      forall k ensures WithKey(Insert(s[0], t, key), key, k) == WithKey(s, key, k) {
        InsertWithKey(s[0], t, key, k);
      }
      assert s == [s[0]] + s[1..];
      Insert(s[0], t, key)
  }

  lemma {:induction false} InsertSorted<T>(x: T, s: seq<T>, key: T -> Key)
    requires SortedBy(s, key)
    ensures SortedBy(Insert(x, s, key), key)
    ensures |s| > 0 ==> Insert(x, s, key)[0] == x || Insert(x, s, key)[0] == s[0]
  {
    if |s| > 0 && !KeyLe(key(x), key(s[0])) {
      var t := Insert(x, s[1..], key);
      InsertSorted(x, s[1..], key);
      assert Insert(x, s, key) == [s[0]] + t;
      InsertElements(x, s[1..], key);
      forall j | 0 < j < |[s[0]] + t|
        ensures KeyLe(key(s[0]), key(([s[0]] + t)[j]))
      {
        var y := t[j - 1];
        assert y == x || y in s[1..];
        if y in s[1..] {
          var m :| 0 <= m < |s[1..]| && s[1..][m] == y;
          assert s[m + 1] == y;
        }
      }
    }
  }

  lemma {:induction false} InsertElements<T>(x: T, s: seq<T>, key: T -> Key)
    ensures |Insert(x, s, key)| == |s| + 1
    ensures forall y :: y in Insert(x, s, key) ==> y == x || y in s
  {
    if |s| > 0 && !KeyLe(key(x), key(s[0])) {
      InsertElements(x, s[1..], key);
    }
  }

  lemma {:induction false} InsertMultiset<T>(x: T, s: seq<T>, key: T -> Key)
    ensures multiset(Insert(x, s, key)) == multiset(s) + multiset{x}
  {
    if |s| > 0 && !KeyLe(key(x), key(s[0])) {
      InsertMultiset(x, s[1..], key);
      assert s == [s[0]] + s[1..];
    }
  }

  /** Inserting `x` only adds `x` to its own key class, at the front of it:
      every element it is moved past has a strictly smaller key. */
  lemma {:induction false} InsertWithKey<T>(x: T, s: seq<T>, key: T -> Key, k: Key)
    ensures WithKey(Insert(x, s, key), key, k)
         == (if key(x) == k then [x] else []) + WithKey(s, key, k)
  {
    if |s| == 0 {
    } else if KeyLe(key(x), key(s[0])) {
      assert ([x] + s)[1..] == s;
    } else {
      var t := Insert(x, s[1..], key);
      InsertWithKey(x, s[1..], key, k);
      assert ([s[0]] + t)[1..] == t;
    }
  }
}

=== FILE: storage.dfy ===
/** The four documents `storage.py` keeps, loaded into one value. Every
    storage operation is a load-modify-save of one of them. */
module Storage {
  import opened Suggestions
  import opened Polls
  import opened Weekly
  import opened Subscribers

  datatype Store = Store(
    suggestions: Registry,
    polls: Ledger,
    weekly: seq<WeeklyResult>,
    subscribers: seq<Subscriber>)

  /** The documents as `load_json` returns them when no file exists yet. */
  const Empty := Store([], [], [], [])

  /** `reset_all_votes`: forgets every poll and weekly result and makes every
      suggestion eligible again; records keep their order and all other fields. */
  function ResetAllVotes(st: Store): (st': Store)
    ensures st'.polls == [] && st'.weekly == []
    ensures st'.subscribers == st.subscribers
    ensures |st'.suggestions| == |st.suggestions|
    ensures forall i :: 0 <= i < |st.suggestions| ==>
      st'.suggestions[i] == st.suggestions[i].(usedInDaily := false)
  {
    Store(ClearUsed(st.suggestions), [], [], st.subscribers)
  }

  function ClearUsed(r: Registry): (r': Registry)
    ensures |r'| == |r|
    ensures forall i :: 0 <= i < |r| ==> r'[i] == r[i].(usedInDaily := false)
  {
    if |r| == 0 then [] else [r[0].(usedInDaily := false)] + ClearUsed(r[1..])
  }

  /** After a reset every suggestion is listed as unused, in stored order, and
      the registry's invariants still hold. */
  lemma ResetMakesAllUnused(st: Store)
    ensures Unused(ResetAllVotes(st).suggestions) == ResetAllVotes(st).suggestions
    ensures NamesDistinct(st.suggestions) ==> NamesDistinct(ResetAllVotes(st).suggestions)
    ensures IdsUnique(st.suggestions) ==> IdsUnique(ResetAllVotes(st).suggestions)
  {
    AllUnused(ResetAllVotes(st).suggestions);
  }

  lemma {:induction false} AllUnused(r: Registry)
    requires forall i :: 0 <= i < |r| ==> !r[i].usedInDaily
    ensures Unused(r) == r
  {
    if |r| > 0 {
      AllUnused(r[1..]);
      assert r == [r[0]] + r[1..];
    }
  }
}

=== FILE: subscribers.dfy ===
/** The subscribers document of `storage.py`: users who have opened a private
    chat with the bot. */
module Subscribers {

  datatype Subscriber = Subscriber(userId: int, firstName: string, subscribedAt: int)

  predicate UserIdsUnique(subs: seq<Subscriber>) {
    forall i, j :: 0 <= i < j < |subs| ==> subs[i].userId != subs[j].userId
  }

  predicate IsSubscribed(subs: seq<Subscriber>, userId: int) {
    exists i :: 0 <= i < |subs| && subs[i].userId == userId
  }

  /** `add_subscriber`: `false` and no change when the user is already listed;
      otherwise the user is appended and the result is `true`. */
  function AddSubscriber(subs: seq<Subscriber>, userId: int, firstName: string, now: int)
    : (res: (bool, seq<Subscriber>))
    ensures res.0 <==> !IsSubscribed(subs, userId)
    ensures !res.0 ==> res.1 == subs
    ensures res.0 ==> res.1 == subs + [Subscriber(userId, firstName, now)]
    ensures IsSubscribed(res.1, userId)
    ensures UserIdsUnique(subs) ==> UserIdsUnique(res.1)
  {
    if IsSubscribed(subs, userId) then (false, subs)
    else
      var subs' := subs + [Subscriber(userId, firstName, now)];
      assert subs'[|subs|].userId == userId;
      (true, subs')
  }

  /** Subscribing twice is the same as subscribing once, and the second call reports `false`. */
  lemma AddSubscriberIdempotent(subs: seq<Subscriber>, userId: int, firstName: string, now: int, name2: string, now2: int)
    ensures var once := AddSubscriber(subs, userId, firstName, now).1;
      AddSubscriber(once, userId, name2, now2) == (false, once)
  {
  }

  /** `remove_subscriber`: the entries of other users, in order. */
  function RemoveSubscriber(subs: seq<Subscriber>, userId: int): (subs': seq<Subscriber>)
    ensures |subs'| <= |subs|
  {
    if |subs| == 0 then []
    else if subs[0].userId == userId then RemoveSubscriber(subs[1..], userId)
    else [subs[0]] + RemoveSubscriber(subs[1..], userId)
  }

  /** Removal drops every entry of the user, keeps every other entry, and is a
      no-op when the user was not subscribed. */
  lemma RemoveSubscriberMeaning(subs: seq<Subscriber>, userId: int)
    ensures forall s :: s in RemoveSubscriber(subs, userId) <==> s in subs && s.userId != userId
    ensures !IsSubscribed(RemoveSubscriber(subs, userId), userId)
    ensures !IsSubscribed(subs, userId) ==> RemoveSubscriber(subs, userId) == subs
  {
    RemoveKeepsOthers(subs, userId);
    var r := RemoveSubscriber(subs, userId);
    forall i | 0 <= i < |r| ensures r[i].userId != userId {
      assert r[i] in r;
    }
    if !IsSubscribed(subs, userId) {
      RemoveAbsent(subs, userId);
    }
  }

  /** Removal decides entry by entry and keeps the survivors in their order: a
      single entry stays exactly when it belongs to another user, and removing
      from a concatenation concatenates the two removals. */
  lemma {:induction false} RemoveSubscriberInOrder(a: seq<Subscriber>, b: seq<Subscriber>, userId: int)
    ensures RemoveSubscriber(a + b, userId) == RemoveSubscriber(a, userId) + RemoveSubscriber(b, userId)
    ensures |a| == 1 ==> RemoveSubscriber(a, userId) == if a[0].userId == userId then [] else a
  {
    if |a| > 0 {
      RemoveSubscriberInOrder(a[1..], b, userId);
      assert (a + b)[1..] == a[1..] + b;
    } else {
      assert a + b == b;
    }
    if |a| == 1 {
      assert a[1..] == [];
    }
  }

  lemma {:induction false} RemoveKeepsOthers(subs: seq<Subscriber>, userId: int)
    ensures forall s :: s in RemoveSubscriber(subs, userId) <==> s in subs && s.userId != userId
  {
    if |subs| > 0 {
      RemoveKeepsOthers(subs[1..], userId);
      assert subs == [subs[0]] + subs[1..];
    }
  }

  lemma {:induction false} RemoveAbsent(subs: seq<Subscriber>, userId: int)
    requires !IsSubscribed(subs, userId)
    ensures RemoveSubscriber(subs, userId) == subs
  {
    if |subs| > 0 {
      forall i | 0 <= i < |subs[1..]| ensures subs[1..][i].userId != userId {
        assert subs[1..][i] == subs[i + 1];
      }
      RemoveAbsent(subs[1..], userId);
      assert subs == [subs[0]] + subs[1..];
    }
  }

  lemma {:induction false} RemoveKeepsUnique(subs: seq<Subscriber>, userId: int)
    requires UserIdsUnique(subs)
    ensures UserIdsUnique(RemoveSubscriber(subs, userId))
  {
    if |subs| > 0 {
      assert UserIdsUnique(subs[1..]) by {
        forall i, j | 0 <= i < j < |subs[1..]| ensures subs[1..][i].userId != subs[1..][j].userId {
          assert subs[1..][i] == subs[i + 1] && subs[1..][j] == subs[j + 1];
        }
      }
      RemoveKeepsUnique(subs[1..], userId);
      RemoveSubscriberMeaning(subs[1..], userId);
      var t := RemoveSubscriber(subs[1..], userId);
      forall j | 0 <= j < |t| ensures t[j].userId != subs[0].userId {
        assert t[j] in subs[1..];
      }
    }
  }

  /** After removal the user can subscribe again. */
  lemma ResubscribeAfterRemove(subs: seq<Subscriber>, userId: int, firstName: string, now: int)
    ensures AddSubscriber(RemoveSubscriber(subs, userId), userId, firstName, now).0
  {
    RemoveSubscriberMeaning(subs, userId);
  }
}

=== FILE: suggestions.dfy ===
/** The suggestion registry of `storage.py`: the list of submitted band names,
    each flagged once it has been put into a daily poll. */
module Suggestions {
  import opened Wrappers
  import opened Text

  /** One record of the suggestions document. Ids are the uuids the registry
      generates and timestamps are microseconds since the epoch; both are inputs here. */
  datatype Suggestion = Suggestion(
    id: string,
    name: string,
    authorId: int,
    authorName: string,
    submittedAt: int,
    usedInDaily: bool)

  type Registry = seq<Suggestion>

  /** The registry's invariant: no two names share a normal form. */
  predicate NamesDistinct(r: Registry) {
    forall i, j :: 0 <= i < j < |r| ==> Normalize(r[i].name) != Normalize(r[j].name)
  }

  predicate IdsUnique(r: Registry) {
    forall i, j :: 0 <= i < j < |r| ==> r[i].id != r[j].id
  }

  /** `b` keeps some of the elements of `a`, in their order. */
  predicate Subsequence<T(==)>(b: seq<T>, a: seq<T>)
    decreases |a|
  {
    if |b| == 0 then true
    else if |a| == 0 then false
    else if b[0] == a[0] then Subsequence(b[1..], a[1..])
    else Subsequence(b, a[1..])
  }

  /** Some existing name normalises to the same key as `name`. */
  function IsDuplicate(r: Registry, name: string): (dup: bool)
    ensures dup <==> exists i :: 0 <= i < |r| && Normalize(r[i].name) == Normalize(name)
  {
    if |r| == 0 then false
    else if Normalize(r[0].name) == Normalize(name) then true
    else
      var d := IsDuplicate(r[1..], name);
      assert d ==> exists i :: 0 <= i < |r| && Normalize(r[i].name) == Normalize(name) by {
        if d {
          var i :| 0 <= i < |r[1..]| && Normalize(r[1..][i].name) == Normalize(name);
          assert r[i + 1] == r[1..][i];
        }
      }
      d
  }

  /** `add_suggestion`: `None` and no change on a duplicate, otherwise the new
      record, which is appended to the registry. */
  function AddSuggestion(r: Registry, name: string, id: string, authorId: int, authorName: string, now: int)
    : (res: (Option<Suggestion>, Registry))
    ensures res.0.None? <==> exists i :: 0 <= i < |r| && Normalize(r[i].name) == Normalize(name)
    ensures res.0.None? ==> res.1 == r
    ensures res.0.Some? ==> res.1 == r + [res.0.value]
    ensures res.0.Some? ==> res.0.value.name == Strip(name) && !res.0.value.usedInDaily
    ensures res.0.Some? ==> (res.0.value.id == id && res.0.value.authorId == authorId
                             && res.0.value.authorName == authorName && res.0.value.submittedAt == now)
  {
    if IsDuplicate(r, name) then (None, r)
    else
      var record := Suggestion(id, Strip(name), authorId, authorName, now, false);
      (Some(record), r + [record])
  }

  /** Adding never breaks the registry's invariant: the stored (stripped) name
      has the same normal form as the submitted one, which no record shares. */
  lemma AddKeepsNamesDistinct(r: Registry, name: string, id: string, authorId: int, authorName: string, now: int)
    requires NamesDistinct(r)
    ensures NamesDistinct(AddSuggestion(r, name, id, authorId, authorName, now).1)
  {
    var res := AddSuggestion(r, name, id, authorId, authorName, now);
    if res.0.Some? {
      NormalizeOfStrip(name);
      var r' := res.1;
      forall i, j | 0 <= i < j < |r'|
        ensures Normalize(r'[i].name) != Normalize(r'[j].name)
      {
        if j == |r| {
          assert r'[i] == r[i];
        }
      }
    }
  }

  /** A fresh id keeps ids unique. */
  lemma AddKeepsIdsUnique(r: Registry, name: string, id: string, authorId: int, authorName: string, now: int)
    requires IdsUnique(r)
    requires forall i :: 0 <= i < |r| ==> r[i].id != id
    ensures IdsUnique(AddSuggestion(r, name, id, authorId, authorName, now).1)
  {
  }

  /** The submissions of a run of `add_suggestion` calls. */
  datatype Submission = Submission(name: string, id: string, authorId: int, authorName: string, at: int)

  function AddAll(r: Registry, subs: seq<Submission>): Registry
    decreases |subs|
  {
    if |subs| == 0 then r
    else
      var s := subs[0];
      AddAll(AddSuggestion(r, s.name, s.id, s.authorId, s.authorName, s.at).1, subs[1..])
  }

  /** Starting from an empty registry, no sequence of submissions produces two
      names with the same normal form. */
  lemma {:induction false} AddAllNamesDistinct(r: Registry, subs: seq<Submission>)
    requires NamesDistinct(r)
    ensures NamesDistinct(AddAll(r, subs))
    decreases |subs|
  {
    if |subs| > 0 {
      var s := subs[0];
      AddKeepsNamesDistinct(r, s.name, s.id, s.authorId, s.authorName, s.at);
      AddAllNamesDistinct(AddSuggestion(r, s.name, s.id, s.authorId, s.authorName, s.at).1, subs[1..]);
    }
  }

  lemma FromEmptyNamesDistinct(subs: seq<Submission>)
    ensures NamesDistinct(AddAll([], subs))
  {
    AddAllNamesDistinct([], subs);
  }

  /** `get_unused_suggestions`: the records not yet used in a daily poll, in stored order. */
  function Unused(r: Registry): (u: seq<Suggestion>)
    ensures |u| <= |r|
  {
    if |r| == 0 then []
    else if r[0].usedInDaily then Unused(r[1..])
    else [r[0]] + Unused(r[1..])
  }

  /** `Unused(r)` holds exactly the unused records, each as often as in `r`, in stored order. */
  lemma {:induction false} UnusedMeaning(r: Registry)
    ensures forall s :: s in Unused(r) <==> s in r && !s.usedInDaily
    ensures forall s: Suggestion :: !s.usedInDaily ==> multiset(Unused(r))[s] == multiset(r)[s]
    ensures Subsequence(Unused(r), r)
  {
    if |r| > 0 {
      UnusedMeaning(r[1..]);
      var t := Unused(r[1..]);
      assert r == [r[0]] + r[1..];
      if r[0].usedInDaily {
        SubsequenceSkip(t, r);
      } else {
        assert ([r[0]] + t)[1..] == t;
      }
    }
  }

  lemma {:induction false} SubsequenceSkip<T>(b: seq<T>, a: seq<T>)
    requires |a| > 0 && Subsequence(b, a[1..])
    ensures Subsequence(b, a)
    decreases |a|, 0
  {
    if |b| > 0 && b[0] == a[0] {
      SubsequenceTail(b, a[1..]);
    }
  }

  lemma {:induction false} SubsequenceTail<T>(b: seq<T>, a: seq<T>)
    requires |b| > 0 && Subsequence(b, a)
    ensures Subsequence(b[1..], a)
    decreases |a|, 1
  {
    if b[0] != a[0] {
      SubsequenceTail(b, a[1..]);
    }
    SubsequenceSkip(b[1..], a);
  }

  /** Flags one record when its id is listed. */
  function MarkOne(s: Suggestion, ids: seq<string>): Suggestion {
    if s.id in ids then s.(usedInDaily := true) else s
  }

  /** `mark_suggestions_used`: sets the flag on exactly the records whose id is
      listed; unknown ids are ignored and nothing else changes. */
  function MarkUsed(r: Registry, ids: seq<string>): (r': Registry)
    ensures |r'| == |r|
    ensures forall i :: 0 <= i < |r| ==> r'[i].usedInDaily == (r[i].usedInDaily || r[i].id in ids)
    ensures forall i :: 0 <= i < |r| ==> r'[i].(usedInDaily := r[i].usedInDaily) == r[i]
  {
    if |r| == 0 then [] else [MarkOne(r[0], ids)] + MarkUsed(r[1..], ids)
  }

  lemma MarkUsedIdempotent(r: Registry, ids: seq<string>)
    ensures MarkUsed(MarkUsed(r, ids), ids) == MarkUsed(r, ids)
  {
    var once := MarkUsed(r, ids);
    var twice := MarkUsed(once, ids);
    assert forall i :: 0 <= i < |r| ==> twice[i] == once[i];
  }

  /** After marking, none of the marked ids is listed as unused; records that
      were unused and not marked still are. */
  lemma MarkUsedThenUnused(r: Registry, ids: seq<string>)
    ensures forall s :: s in Unused(MarkUsed(r, ids)) ==> s.id !in ids
    ensures forall s :: s in Unused(r) && s.id !in ids ==> s in Unused(MarkUsed(r, ids))
  {
    var m := MarkUsed(r, ids);
    UnusedMeaning(r);
    UnusedMeaning(m);
    forall s | s in Unused(m)
      ensures s.id !in ids
    {
      var i :| 0 <= i < |m| && m[i] == s;
    }
    forall s | s in Unused(r) && s.id !in ids
      ensures s in Unused(m)
    {
      var i :| 0 <= i < |r| && r[i] == s;
      assert m[i] == s;
    }
  }

  lemma MarkUsedKeepsNamesDistinct(r: Registry, ids: seq<string>)
    requires NamesDistinct(r)
    ensures NamesDistinct(MarkUsed(r, ids))
  {
    var m := MarkUsed(r, ids);
    assert forall i :: 0 <= i < |r| ==> m[i].name == r[i].name;
  }

  /** `get_suggestion_by_id`: the first record with that id. */
  function FindById(r: Registry, id: string): (res: Option<Suggestion>)
    ensures res.None? <==> forall i :: 0 <= i < |r| ==> r[i].id != id
    ensures res.Some? ==> exists i :: 0 <= i < |r| && r[i] == res.value
                              && res.value.id == id && forall j :: 0 <= j < i ==> r[j].id != id
  {
    if |r| == 0 then None
    else if r[0].id == id then Some(r[0])
    else
      var res := FindById(r[1..], id);
      if res.Some? then
        var i :| 0 <= i < |r[1..]| && r[1..][i] == res.value && res.value.id == id
                 && forall j :: 0 <= j < i ==> r[1..][j].id != id;
        assert r[i + 1] == res.value;
        assert forall j :: 0 <= j < i + 1 ==> r[j].id != id by {
          forall j | 0 <= j < i + 1 ensures r[j].id != id {
            if j > 0 { assert r[j] == r[1..][j - 1]; }
          }
        }
        res
      else
        res
  }

  /** The last record with that id: the one `delete_suggestion`'s loop returns. */
  function LastWithId(r: Registry, id: string): (res: Option<Suggestion>)
    ensures res.None? <==> forall i :: 0 <= i < |r| ==> r[i].id != id
    ensures res.Some? ==> exists i :: 0 <= i < |r| && r[i] == res.value && res.value.id == id
                              && forall j :: i < j < |r| ==> r[j].id != id
  {
    if |r| == 0 then None
    else
      var last := r[|r| - 1];
      if last.id == id then Some(last)
      else
        var init := r[..|r| - 1];
        var res := LastWithId(init, id);
        assert forall i :: 0 <= i < |init| ==> init[i] == r[i];
        if res.Some? then
          var i :| 0 <= i < |init| && init[i] == res.value && res.value.id == id
                   && forall j :: i < j < |init| ==> init[j].id != id;
          assert r[i] == res.value;
          res
        else
          res
  }

  /** The records whose id differs from `id`, in order. */
  function WithoutId(r: Registry, id: string): (r': Registry)
    ensures |r'| <= |r|
  {
    if |r| == 0 then []
    else if r[0].id == id then WithoutId(r[1..], id)
    else [r[0]] + WithoutId(r[1..], id)
  }

  lemma {:induction false} WithoutIdMeaning(r: Registry, id: string)
    ensures forall s :: s in WithoutId(r, id) <==> s in r && s.id != id
  {
    if |r| > 0 {
      WithoutIdMeaning(r[1..], id);
      assert r == [r[0]] + r[1..];
    }
  }

  /** `delete_suggestion(index)`: `index` is 1-based in the current unused list.
      Out of range gives `None` and no change; otherwise every record carrying the
      chosen record's id is removed and the last of them is returned. */
  function DeleteSuggestion(r: Registry, index: int): (res: (Option<Suggestion>, Registry))
    ensures res.0.None? <==> index < 1 || index > |Unused(r)|
    ensures res.0.None? ==> res.1 == r
    ensures res.0.Some? ==> res.0.value.id == Unused(r)[index - 1].id
    ensures res.0.Some? ==> forall s :: s in res.1 <==> s in r && s.id != res.0.value.id
    ensures res.0.Some? ==> exists i :: 0 <= i < |r| && r[i] == res.0.value
                              && forall j :: i < j < |r| ==> r[j].id != res.0.value.id
  {
    var unused := Unused(r);
    UnusedMeaning(r);
    if index < 1 || index > |unused| then (None, r)
    else
      var target := unused[index - 1].id;
      assert unused[index - 1] in r;
      WithoutIdMeaning(r, target);
      (LastWithId(r, target), WithoutId(r, target))
  }

  lemma {:induction false} UnusedAppend(a: Registry, b: Registry)
    ensures Unused(a + b) == Unused(a) + Unused(b)
  {
    if |a| > 0 {
      UnusedAppend(a[1..], b);
      assert (a + b)[1..] == a[1..] + b;
      assert (a + b)[0] == a[0];
    } else {
      assert a + b == b;
    }
  }

  lemma {:induction false} WithoutIdAppend(a: Registry, b: Registry, id: string)
    ensures WithoutId(a + b, id) == WithoutId(a, id) + WithoutId(b, id)
  {
    if |a| > 0 {
      WithoutIdAppend(a[1..], b, id);
      assert (a + b)[1..] == a[1..] + b;
    } else {
      assert a + b == b;
    }
  }

  lemma {:induction false} WithoutAbsentId(r: Registry, id: string)
    requires forall i :: 0 <= i < |r| ==> r[i].id != id
    ensures WithoutId(r, id) == r
  {
    if |r| > 0 {
      WithoutAbsentId(r[1..], id);
      assert r == [r[0]] + r[1..];
    }
  }

  /** With unique ids the record at `k` is the only one carrying its id, so
      it is the one returned and removing that id removes exactly position `k`. */
  lemma RemoveAtUniqueId(r: Registry, k: int)
    requires IdsUnique(r)
    requires 0 <= k < |r|
    ensures LastWithId(r, r[k].id) == Some(r[k])
    ensures WithoutId(r, r[k].id) == r[..k] + r[k + 1..]
  {
    LastIsOnly(r, k);
    OnlyCarrier(r, k);
    RemoveSoleCarrier(r, k);
  }

  /** Removing the id of position `k`, when no other record carries it, removes
      exactly position `k`. */
  lemma RemoveSoleCarrier(r: Registry, k: int)
    requires 0 <= k < |r|
    requires var pre := r[..k]; forall i :: 0 <= i < |pre| ==> pre[i].id != r[k].id
    requires var post := r[k + 1..]; forall i :: 0 <= i < |post| ==> post[i].id != r[k].id
    ensures WithoutId(r, r[k].id) == r[..k] + r[k + 1..]
  {
    var pre, post := r[..k], r[k + 1..];
    assert r == pre + [r[k]] + post;
    WithoutOnlyCarrier(pre, r[k], post);
  }

  /** With unique ids, no record before or after position `k` carries `r[k]`'s id. */
  lemma OnlyCarrier(r: Registry, k: int)
    requires IdsUnique(r)
    requires 0 <= k < |r|
    ensures var pre := r[..k]; forall i :: 0 <= i < |pre| ==> pre[i].id != r[k].id
    ensures var post := r[k + 1..]; forall i :: 0 <= i < |post| ==> post[i].id != r[k].id
  {
  }

  lemma LastIsOnly(r: Registry, k: int)
    requires IdsUnique(r)
    requires 0 <= k < |r|
    ensures LastWithId(r, r[k].id) == Some(r[k])
  {
    var res := LastWithId(r, r[k].id);
    var i :| 0 <= i < |r| && r[i] == res.value && res.value.id == r[k].id;
    assert i == k;
  }

  lemma {:induction false} WithoutOnlyCarrier(pre: Registry, x: Suggestion, post: Registry)
    requires forall i :: 0 <= i < |pre| ==> pre[i].id != x.id
    requires forall i :: 0 <= i < |post| ==> post[i].id != x.id
    ensures WithoutId(pre + [x] + post, x.id) == pre + post
  {
    if |pre| == 0 {
      assert pre + [x] + post == [x] + post;
      assert pre + post == post;
      WithoutAbsentId(post, x.id);
    } else {
      WithoutOnlyCarrier(pre[1..], x, post);
      assert (pre + [x] + post)[1..] == pre[1..] + [x] + post;
      assert (pre + post)[1..] == pre[1..] + post;
    }
  }

  /** The unused list of `pre + [x] + post`, for an unused `x`. */
  lemma UnusedAround(pre: Registry, x: Suggestion, post: Registry)
    requires !x.usedInDaily
    ensures Unused(pre + [x] + post) == Unused(pre) + [x] + Unused(post)
    ensures Unused(pre + post) == Unused(pre) + Unused(post)
  {
    UnusedAppend(pre + [x], post);
    UnusedAppend(pre, [x]);
    UnusedAppend(pre, post);
    assert Unused([x]) == [x];
  }

  lemma {:induction false} UnusedFrom(r: Registry)
    ensures forall s :: s in Unused(r) ==> s in r && !s.usedInDaily
  {
    if |r| > 0 {
      UnusedFrom(r[1..]);
    }
  }

  lemma {:induction false} UnusedIdsUnique(r: Registry)
    requires IdsUnique(r)
    ensures IdsUnique(Unused(r))
  {
    if |r| > 0 {
      UnusedIdsUnique(r[1..]);
      UnusedFrom(r[1..]);
      var t := Unused(r[1..]);
      if !r[0].usedInDaily {
        forall j | 0 <= j < |t| ensures t[j].id != r[0].id {
          assert t[j] in r[1..];
        }
      }
    }
  }

  /** With unique ids, deleting the `index`-th unused record returns exactly that
      record, removes exactly it, and closes the gap in the unused list. */
  lemma DeleteWithUniqueIds(r: Registry, index: int)
    requires IdsUnique(r)
    requires 1 <= index <= |Unused(r)|
    ensures DeleteSuggestion(r, index).0 == Some(Unused(r)[index - 1])
    ensures exists k :: 0 <= k < |r| && r[k] == Unused(r)[index - 1]
                        && DeleteSuggestion(r, index).1 == r[..k] + r[k + 1..]
    ensures Unused(DeleteSuggestion(r, index).1) == Unused(r)[..index - 1] + Unused(r)[index..]
  {
    var u := Unused(r);
    UnusedFrom(r);
    var target := u[index - 1];
    assert target in r;
    var k :| 0 <= k < |r| && r[k] == target;
    RemoveAtUniqueId(r, k);
    DeleteSplitsUnused(r, k, index);
  }

  lemma DeleteSplitsUnused(r: Registry, k: int, index: int)
    requires IdsUnique(r)
    requires 1 <= index <= |Unused(r)|
    requires 0 <= k < |r| && r[k] == Unused(r)[index - 1]
    ensures Unused(r[..k] + r[k + 1..]) == Unused(r)[..index - 1] + Unused(r)[index..]
  {
    UnusedPosition(r, k, index);
    CloseGap(r, k, index);
  }

  /** Removing an unused record at position `k`, which is unused record number
      `index`, closes the gap at `index` in the unused list. */
  lemma CloseGap(r: Registry, k: int, index: int)
    requires 0 <= k < |r| && !r[k].usedInDaily
    requires index == |Unused(r[..k])| + 1
    ensures index <= |Unused(r)|
    ensures Unused(r[..k] + r[k + 1..]) == Unused(r)[..index - 1] + Unused(r)[index..]
  {
    var pre, post := r[..k], r[k + 1..];
    assert r == pre + [r[k]] + post;
    UnusedAround(pre, r[k], post);
    var u, u1, u2 := Unused(r), Unused(pre), Unused(post);
    assert u == u1 + [r[k]] + u2;
    assert u[..index - 1] == u1;
    assert u[index..] == u2;
  }

  /** With unique ids, an unused record at position `k` that is unused record
      number `index` has exactly `index - 1` unused records before it. */
  lemma UnusedPosition(r: Registry, k: int, index: int)
    requires IdsUnique(r)
    requires 1 <= index <= |Unused(r)|
    requires 0 <= k < |r| && r[k] == Unused(r)[index - 1]
    ensures !r[k].usedInDaily
    ensures index == |Unused(r[..k])| + 1
  {
    var u := Unused(r);
    var target := r[k];
    var pre, post := r[..k], r[k + 1..];
    assert r == pre + [target] + post;
    assert !target.usedInDaily by {
      UnusedFrom(r);
      assert target in u;
    }
    UnusedAround(pre, target, post);
    assert IdsUnique(u) by {
      UnusedIdsUnique(r);
    }
    SplitAtUnique(u, Unused(pre), target, Unused(post), index - 1);
  }

  /** In a list without repeated ids, a record found both at position `n` and
      right after the prefix `u1` is at position `|u1|`. */
  lemma SplitAtUnique(u: Registry, u1: Registry, x: Suggestion, u2: Registry, n: nat)
    requires IdsUnique(u)
    requires u == u1 + [x] + u2
    requires n < |u| && u[n] == x
    ensures n == |u1|
  {
    assert u[|u1|] == x;
  }

  lemma TailKeepsInvariants(r: Registry)
    requires |r| > 0
    ensures NamesDistinct(r) ==> NamesDistinct(r[1..])
    ensures IdsUnique(r) ==> IdsUnique(r[1..])
  {
    forall i, j | 0 <= i < j < |r[1..]|
      ensures r[1..][i] == r[i + 1] && r[1..][j] == r[j + 1]
    {
    }
  }

  lemma {:induction false} WithoutIdKeepsNames(r: Registry, id: string)
    requires NamesDistinct(r)
    ensures NamesDistinct(WithoutId(r, id))
  {
    if |r| > 0 {
      TailKeepsInvariants(r);
      WithoutIdKeepsNames(r[1..], id);
      WithoutIdMeaning(r[1..], id);
      var t := WithoutId(r[1..], id);
      if r[0].id != id {
        forall j | 0 <= j < |t|
          ensures Normalize(t[j].name) != Normalize(r[0].name)
        {
          assert t[j] in r[1..];
          var m :| 0 <= m < |r[1..]| && r[1..][m] == t[j];
          assert r[m + 1] == t[j];
        }
        ConsKeepsNames(r[0], t);
      }
    }
  }

  lemma ConsKeepsNames(x: Suggestion, t: Registry)
    requires NamesDistinct(t)
    requires forall j :: 0 <= j < |t| ==> Normalize(t[j].name) != Normalize(x.name)
    ensures NamesDistinct([x] + t)
  {
    var r := [x] + t;
    forall i, j | 0 <= i < j < |r| ensures Normalize(r[i].name) != Normalize(r[j].name) {
      ConsNames(x, t, i, j);
    }
  }

  lemma ConsNames(x: Suggestion, t: Registry, i: int, j: int)
    requires 0 <= i < j <= |t|
    ensures ([x] + t)[j].name == t[j - 1].name
    ensures i == 0 ==> ([x] + t)[i].name == x.name
    ensures i > 0 ==> ([x] + t)[i].name == t[i - 1].name
  {
  }

  lemma {:induction false} WithoutIdKeepsIds(r: Registry, id: string)
    requires IdsUnique(r)
    ensures IdsUnique(WithoutId(r, id))
  {
    if |r| > 0 {
      TailKeepsInvariants(r);
      WithoutIdKeepsIds(r[1..], id);
      WithoutIdMeaning(r[1..], id);
      var t := WithoutId(r[1..], id);
      if r[0].id != id {
        forall j | 0 <= j < |t|
          ensures t[j].id != r[0].id
        {
          assert t[j] in r[1..];
          var m :| 0 <= m < |r[1..]| && r[1..][m] == t[j];
          assert r[m + 1] == t[j];
        }
      }
    }
  }

  /** Deleting keeps the registry's invariants. */
  lemma DeleteKeepsInvariants(r: Registry, index: int)
    ensures NamesDistinct(r) ==> NamesDistinct(DeleteSuggestion(r, index).1)
    ensures IdsUnique(r) ==> IdsUnique(DeleteSuggestion(r, index).1)
  {
    var unused := Unused(r);
    if 1 <= index <= |unused| {
      if NamesDistinct(r) {
        WithoutIdKeepsNames(r, unused[index - 1].id);
      }
      if IdsUnique(r) {
        WithoutIdKeepsIds(r, unused[index - 1].id);
      }
    }
  }
}

=== FILE: text.dfy ===
/** Text normalisation used by the suggestion registry: trimming whitespace at
    both ends, lower-casing, and joining command words with a separator. */
module Text {

  /** The characters Python treats as whitespace when trimming a string. */
  predicate IsSpace(c: char) {
    || ('\t' <= c <= '\r')
    || ('\U{1C}' <= c <= '\U{1F}')
    || c == ' '
    || c == '\U{85}'
    || c == '\U{A0}'
    || c == '\U{1680}'
    || ('\U{2000}' <= c <= '\U{200A}')
    || c == '\U{2028}'
    || c == '\U{2029}'
    || c == '\U{202F}'
    || c == '\U{205F}'
    || c == '\U{3000}'
  }

  predicate AllSpace(s: string) {
    forall i :: 0 <= i < |s| ==> IsSpace(s[i])
  }

  /** Neither end of `s` is a space: `s` is a fixed point of trimming. */
  predicate Stripped(s: string) {
    |s| == 0 || (!IsSpace(s[0]) && !IsSpace(s[|s| - 1]))
  }

  /** First index at or after `from` that is not a space (or `|s|`). */
  function LeadStart(s: string, from: nat): (a: nat)
    requires from <= |s|
    ensures from <= a <= |s|
    ensures forall i :: from <= i < a ==> IsSpace(s[i])
    ensures a == |s| || !IsSpace(s[a])
    decreases |s| - from
  {
    if from < |s| && IsSpace(s[from]) then LeadStart(s, from + 1) else from
  }

  /** End of `s[a..to]` once its trailing spaces are dropped. */
  function TrailEnd(s: string, a: nat, to: nat): (b: nat)
    requires a <= to <= |s|
    ensures a <= b <= to
    ensures forall i :: b <= i < to ==> IsSpace(s[i])
    ensures b == a || !IsSpace(s[b - 1])
  {
    if a < to && IsSpace(s[to - 1]) then TrailEnd(s, a, to - 1) else to
  }

  /** `s` without the whitespace at either end. */
  function Strip(s: string): (r: string)
    ensures Stripped(r)
    ensures |r| <= |s|
  {
    var a := LeadStart(s, 0);
    s[a..TrailEnd(s, a, |s|)]
  }

  /** `Strip(s)` is the slice of `s` left once the spaces at both ends are
      dropped: only spaces lie around it, and it has no space at either end. */
  lemma StripMeaning(s: string)
    ensures exists a, b :: 0 <= a <= b <= |s| && Strip(s) == s[a..b] && AllSpace(s[..a]) && AllSpace(s[b..])
  {
    var a := LeadStart(s, 0);
    var b := TrailEnd(s, a, |s|);
    assert AllSpace(s[..a]);
    assert AllSpace(s[b..]);
  }

  /** Stripping is idempotent, so a name stored stripped keeps its normal form. */
  lemma StripOfStripped(s: string)
    requires Stripped(s)
    ensures Strip(s) == s
  {
  }

  lemma StripIdempotent(s: string)
    ensures Strip(Strip(s)) == Strip(s)
  {
    StripOfStripped(Strip(s));
  }

  /** Lower-casing of one character for ASCII, Latin-1 and the basic Cyrillic block; other characters are kept. */
  function LowerChar(c: char): char {
    if ('A' <= c <= 'Z') || ('\U{C0}' <= c <= '\U{DE}' && c != '\U{D7}') || ('\U{410}' <= c <= '\U{42F}') then
      (c as int + 32) as char
    else if '\U{400}' <= c <= '\U{40F}' then
      (c as int + 80) as char
    else
      c
  }

  /** Lower-casing of a string, character by character. */
  function Lower(s: string): string {
    if |s| == 0 then "" else [LowerChar(s[0])] + Lower(s[1..])
  }

  /** The duplicate-detection key: the trimmed text, lower-cased. */
  function Normalize(s: string): string {
    Lower(Strip(s))
  }

  lemma NormalizeOfStrip(s: string)
    ensures Normalize(Strip(s)) == Normalize(s)
  {
    StripIdempotent(s);
  }

  /** The words in order, with `sep` between each neighbouring pair. */
  function Join(words: seq<string>, sep: string): (r: string)
    ensures |words| == 0 ==> r == ""
    ensures |words| == 1 ==> r == words[0]
  {
    if |words| == 0 then ""
    else if |words| == 1 then words[0]
    else words[0] + sep + Join(words[1..], sep)
  }
}

=== FILE: votes.dfy ===
/** Live vote tracking of `bot.py` (`on_poll_answer`): Telegram reports a
    voter's complete new selection, and the bot diffs it against the selection
    it remembers for that voter and poll. */
module Votes {
  import opened Wrappers
  import opened Dict
  import opened Polls

  /** A voter and a poll: the key of a remembered answer. */
  type VoterKey = (int, string)

  /** `_previous_answers`: the last non-empty selection seen per voter and poll. */
  type Answers = map<VoterKey, seq<int>>

  /** The entries of `xs` that do not occur in `ys`, in order. */
  function Without(xs: seq<int>, ys: seq<int>): (r: seq<int>)
    ensures forall o :: multiset(r)[o] == if o in ys then 0 else multiset(xs)[o]
  {
    if |xs| == 0 then []
    else
      var t := Without(xs[1..], ys);
      assert xs == [xs[0]] + xs[1..];
      if xs[0] in ys then t else [xs[0]] + t
  }

  /** The filter decides entry by entry and keeps the survivors in order: a
      single entry stays exactly when `ys` lacks it, and filtering a
      concatenation concatenates the two filtered parts. */
  lemma WithoutInOrder(a: seq<int>, b: seq<int>, ys: seq<int>)
    ensures Without(a + b, ys) == Without(a, ys) + Without(b, ys)
    ensures |a| == 1 ==> Without(a, ys) == if a[0] in ys then [] else a
  {
    WithoutAppend(a, b, ys);
    if |a| == 1 {
      WithoutOne(a, ys);
    }
  }

  lemma WithoutOne(a: seq<int>, ys: seq<int>)
    requires |a| == 1
    ensures Without(a, ys) == if a[0] in ys then [] else a
  {
    assert a[1..] == [];
    assert a == [a[0]];
  }

  lemma {:induction false} WithoutAppend(a: seq<int>, b: seq<int>, ys: seq<int>)
    ensures Without(a + b, ys) == Without(a, ys) + Without(b, ys)
  {
    if |a| > 0 {
      var ab := a + b;
      assert ab[0] == a[0];
      assert ab[1..] == a[1..] + b;
      WithoutAppend(a[1..], b, ys);
    } else {
      assert a + b == b;
    }
  }

  predicate NoDup(xs: seq<int>) {
    forall i, j :: 0 <= i < j < |xs| ==> xs[i] != xs[j]
  }

  /** The selection remembered for `key`, empty when there is none. */
  function Previous(a: Answers, key: VoterKey): seq<int> {
    if key in a then a[key] else []
  }

  /** `l'` is `l` with one vote added to each option listed in `added` and one
      taken from each listed in `retracted`, on poll `pollId` only; an unknown
      poll leaves the ledger as it is. */
  ghost predicate VotesMoved(l: Ledger, l': Ledger, pollId: string, added: seq<int>, retracted: seq<int>) {
    && (Get(l, pollId).None? ==> l' == l)
    && (Get(l, pollId).Some? ==>
          var p := Get(l, pollId).value;
          && Get(l', pollId).Some?
          && var p' := Get(l', pollId).value;
          && p'.(options := p.options) == p
          && |p'.options| == |p.options|
          && forall j :: 0 <= j < |p.options| ==>
               && p'.options[j].text == p.options[j].text
               && p'.options[j].suggestionId == p.options[j].suggestionId
               && Count(p'.options[j]) == Count(p.options[j]) + multiset(added)[j] - multiset(retracted)[j])
    && (forall id :: id != pollId ==> Get(l', id) == Get(l, id))
    && Keys(l') == Keys(l)
  }

  /** The two `update_poll_voter_counts` calls: -1 for the retracted options,
      then +1 for the added ones, each skipped when its list is empty. */
  function MoveVotes(l: Ledger, pollId: string, added: seq<int>, retracted: seq<int>): (l': Ledger)
    ensures VotesMoved(l, l', pollId, added, retracted)
  {
    var l1 := if |retracted| > 0 then UpdatePollVoterCounts(l, pollId, retracted, -1) else l;
    if |added| > 0 then UpdatePollVoterCounts(l1, pollId, added, 1) else l1
  }

  /** `on_poll_answer`: options only in the old selection lose a vote, options
      only in the new one gain a vote, and the new selection is remembered (or
      the entry dropped when it is empty). */
  function OnPollAnswer(a: Answers, l: Ledger, user: int, pollId: string, selection: seq<int>)
    : (res: (Answers, Ledger))
    ensures |selection| > 0 ==> (user, pollId) in res.0 && res.0[(user, pollId)] == selection
    ensures |selection| == 0 ==> (user, pollId) !in res.0
    ensures forall k :: k != (user, pollId) ==> (k in res.0 <==> k in a) && (k in a ==> res.0[k] == a[k])
    ensures var prev := Previous(a, (user, pollId));
      VotesMoved(l, res.1, pollId, Without(selection, prev), Without(prev, selection))
  {
    var key := (user, pollId);
    var prev := Previous(a, key);
    var a' := if |selection| > 0 then a[key := selection] else a - {key};
    (a', MoveVotes(l, pollId, Without(selection, prev), Without(prev, selection)))
  }

  /** With duplicate-free selections (as Telegram sends them) the net change to
      an option is +1 if only the new selection has it, -1 if only the old one
      has it, and 0 if both or neither do. */
  lemma DeltaPerOption(prev: seq<int>, selection: seq<int>, j: int)
    requires NoDup(prev) && NoDup(selection)
    ensures multiset(Without(selection, prev))[j] as int - multiset(Without(prev, selection))[j]
         == (if j in selection then 1 else 0) - (if j in prev then 1 else 0)
  {
    NoDupCount(prev, j);
    NoDupCount(selection, j);
  }

  lemma {:induction false} NoDupCount(xs: seq<int>, j: int)
    requires NoDup(xs)
    ensures multiset(xs)[j] == if j in xs then 1 else 0
  {
    if |xs| > 0 {
      assert xs == [xs[0]] + xs[1..];
      NoDupCount(xs[1..], j);
    }
  }

  /** The per-option effect of one answer on a known poll, for duplicate-free selections. */
  lemma AnswerEffect(a: Answers, l: Ledger, user: int, pollId: string, selection: seq<int>)
    requires NoDup(Previous(a, (user, pollId))) && NoDup(selection)
    requires Get(l, pollId).Some?
    ensures var p := Get(l, pollId).value;
      var prev := Previous(a, (user, pollId));
      var p' := Get(OnPollAnswer(a, l, user, pollId, selection).1, pollId).value;
      && |p'.options| == |p.options|
      && forall j :: 0 <= j < |p.options| ==>
           Count(p'.options[j]) == Count(p.options[j]) + (if j in selection then 1 else 0) - (if j in prev then 1 else 0)
  {
    var prev := Previous(a, (user, pollId));
    forall j | 0 <= j < |Get(l, pollId).value.options| {
      DeltaPerOption(prev, selection, j);
    }
  }

  /** A voter switching from options {1, 2} to {1, 3}: option 2 loses a vote,
      option 3 gains one and option 1 is untouched. */
  lemma SwitchExample(a: Answers, l: Ledger, user: int, pollId: string)
    requires Previous(a, (user, pollId)) == [1, 2]
    requires Get(l, pollId).Some? && |Get(l, pollId).value.options| >= 4
    ensures var p := Get(l, pollId).value;
      var p' := Get(OnPollAnswer(a, l, user, pollId, [1, 3]).1, pollId).value;
      && p'.options[1] == p.options[1]
      && Count(p'.options[2]) == Count(p.options[2]) - 1
      && Count(p'.options[3]) == Count(p.options[3]) + 1
  {
    assert Without([1, 2], [1, 3]) == [2];
    assert Without([1, 3], [1, 2]) == [3];
    var p := Get(l, pollId).value;
    var l1 := UpdatePollVoterCounts(l, pollId, [2], -1);
    var p1 := Get(l1, pollId).value;
    assert multiset([2])[1] == 0;
    assert p1.options[1] == p.options[1];
    assert multiset([3])[1] == 0;
  }

  /** The answers a voter sends for one poll, replayed in order. */
  function Replay(a: Answers, l: Ledger, user: int, pollId: string, events: seq<seq<int>>)
    : (Answers, Ledger)
    decreases |events|
  {
    if |events| == 0 then (a, l)
    else
      var next := OnPollAnswer(a, l, user, pollId, events[0]);
      Replay(next.0, next.1, user, pollId, events[1..])
  }

  function LastSelection(start: seq<int>, events: seq<seq<int>>): seq<int> {
    if |events| == 0 then start else events[|events| - 1]
  }

  /** Between `l` and `l'` each option of poll `pollId` has gained a vote if it
      is in `now` and lost one if it is in `before`. */
  ghost predicate CountsShift(l: Ledger, l': Ledger, pollId: string, now: seq<int>, before: seq<int>) {
    && Get(l, pollId).Some?
    && Get(l', pollId).Some?
    && var opts, opts' := Get(l, pollId).value.options, Get(l', pollId).value.options;
    && |opts'| == |opts|
    && forall j :: 0 <= j < |opts| ==>
         Count(opts'[j]) == Count(opts[j]) + (if j in now then 1 else 0) - (if j in before then 1 else 0)
  }

  lemma ShiftCompose(l0: Ledger, l1: Ledger, l2: Ledger, pollId: string, a: seq<int>, b: seq<int>, c: seq<int>)
    requires CountsShift(l0, l1, pollId, b, a)
    requires CountsShift(l1, l2, pollId, c, b)
    ensures CountsShift(l0, l2, pollId, c, a)
  {
  }

  lemma LastSelectionTail(start: seq<int>, events: seq<seq<int>>)
    requires |events| > 0
    ensures LastSelection(events[0], events[1..]) == LastSelection(start, events)
  {
  }

  /** The deltas telescope: after any run of answers, each option's count has
      moved by (in the last selection) - (in the selection remembered before). */
  lemma {:induction false} ReplayTelescopes(a: Answers, l: Ledger, user: int, pollId: string, events: seq<seq<int>>)
    requires NoDup(Previous(a, (user, pollId)))
    requires forall e :: e in events ==> NoDup(e)
    requires Get(l, pollId).Some?
    ensures CountsShift(l, Replay(a, l, user, pollId, events).1, pollId,
                        LastSelection(Previous(a, (user, pollId)), events), Previous(a, (user, pollId)))
    decreases |events|
  {
    var key := (user, pollId);
    if |events| == 0 {
      assert CountsShift(l, l, pollId, Previous(a, key), Previous(a, key));
    } else {
      var next := OnPollAnswer(a, l, user, pollId, events[0]);
      assert CountsShift(l, next.1, pollId, events[0], Previous(a, key)) by {
        AnswerEffect(a, l, user, pollId, events[0]);
      }
      assert Previous(next.0, key) == events[0];
      assert forall e :: e in events[1..] ==> NoDup(e) by {
        assert forall e :: e in events[1..] ==> e in events;
      }
      ReplayTelescopes(next.0, next.1, user, pollId, events[1..]);
      LastSelectionTail(Previous(a, key), events);
      ShiftCompose(l, next.1, Replay(a, l, user, pollId, events).1, pollId,
                   Previous(a, key), events[0], LastSelection(Previous(a, key), events));
    }
  }

  /** A voter with no remembered selection contributes exactly one vote to each
      option of their latest selection and nothing to the others. */
  lemma NetContribution(a: Answers, l: Ledger, user: int, pollId: string, events: seq<seq<int>>)
    requires (user, pollId) !in a
    requires forall e :: e in events ==> NoDup(e)
    requires Get(l, pollId).Some?
    ensures var l' := Replay(a, l, user, pollId, events).1;
      var p := Get(l, pollId).value;
      && Get(l', pollId).Some?
      && |Get(l', pollId).value.options| == |p.options|
      && forall j :: 0 <= j < |p.options| ==>
           Count(Get(l', pollId).value.options[j])
             == Count(p.options[j]) + (if j in LastSelection([], events) then 1 else 0)
  {
    ReplayTelescopes(a, l, user, pollId, events);
  }
}

=== FILE: weekly.dfy ===
/** The weekly-results document of `storage.py`: one record per championship
    round, appended in order; the last one is the round awaiting its reveal. */
module Weekly {
  import opened Wrappers
  import opened Ranking

  datatype WeeklyResult = WeeklyResult(pollId: string, createdAt: int, top: seq<RankedEntry>, revealed: bool)

  /** `add_weekly_result`. */
  function AddWeeklyResult(ws: seq<WeeklyResult>, w: WeeklyResult): seq<WeeklyResult> {
    ws + [w]
  }

  /** `get_latest_weekly`: the last record, or `None` for an empty document. */
  function Latest(ws: seq<WeeklyResult>): (r: Option<WeeklyResult>)
    ensures r.None? <==> |ws| == 0
    ensures r.Some? ==> r.value == ws[|ws| - 1]
  {
    if |ws| == 0 then None else Some(ws[|ws| - 1])
  }

  /** The latest record is the one most recently appended. */
  lemma LatestAfterAdd(ws: seq<WeeklyResult>, w: WeeklyResult)
    ensures Latest(AddWeeklyResult(ws, w)) == Some(w)
    ensures AddWeeklyResult(ws, w)[..|ws|] == ws
  {
  }

  /** `mark_weekly_revealed()` with its default index -1: the last record gets
      `revealed = True`, every other record and field is kept; an empty document
      is left as it is. */
  function MarkLatestRevealed(ws: seq<WeeklyResult>): (ws': seq<WeeklyResult>)
    ensures |ws'| == |ws|
    ensures |ws| > 0 ==> ws'[..|ws| - 1] == ws[..|ws| - 1]
    ensures |ws| > 0 ==> Latest(ws') == Some(ws[|ws| - 1].(revealed := true))
  {
    if |ws| == 0 then ws else ws[|ws| - 1 := ws[|ws| - 1].(revealed := true)]
  }

  lemma MarkLatestRevealedIdempotent(ws: seq<WeeklyResult>)
    ensures MarkLatestRevealed(MarkLatestRevealed(ws)) == MarkLatestRevealed(ws)
  {
  }
}

=== FILE: wrappers.dfy ===
/** The optional value used wherever the bot's Python code returns `None`
    or looks a key up with `dict.get`. */
module Wrappers {

  datatype Option<+T> = None | Some(value: T) {

    /** The wrapped value, or `default` when there is none (a lookup with a default). */
    function GetOr(default: T): T {
      match this
      case Some(v) => v
      case None => default
    }
  }
}
